=== FILE: README.md ===
# multiget resolver core, in Dafny

multiget is a DNS forwarder. It sends each query to every configured upstream
server at once and answers with the first response that arrives. Along the way
it learns the A addresses the upstreams return. It ping-probes those
addresses, caches A answers, and serves later hits with the single fastest
reachable address. This project models the decision logic of that resolver
(`resolver.go`) as pure functions over immutable state, and proves what each
decision promises:

- `Icmp` (icmp.dfy): `makePingRequest`, the ICMP echo request builder shared
  by the resolver and the stand-alone ping benchmark (`pingbench.go`). It
  covers the RFC 792 echo header, the repeated filler payload and the
  Internet checksum of RFC 1071. The checksum's 16-bit sum uses
  little-endian words, with the odd tail byte in the low position. It is
  folded twice in a 32-bit accumulator and complemented into bytes 2-3 by XOR.
  The model proves the packet passes RFC 1071 verification in either byte
  order (section 2(B)). It also proves the two folds equal the carry loop of
  RFC 1071 section 4.1 whenever the accumulator cannot overflow.
- `Dns` (dns.dfy): the slice of the DNS message the core looks at. That is
  questions, A and other records, and `iscachable`.
- `Tracker` (tracker.dfy): the `iptracker` actor. Its state is a map from
  address to its last probe reading. Each message is one transition that
  returns the new map and the probes to launch: Discover, Update, BestOf, and
  the timer-driven recheck of the oldest entry.
- `Cache` (cache.dfy): the `cacheservice` actor's Get and Put, and
  `putincache`, which turns a round's cacheable responses into one Put.
- `Fanout` (fanout.dfy): the collection loop of `multidns`. It is a fold over
  the upstream replies in arrival order.
- `Dispatch` (dispatch.dfy): `runquery`, the choice between a cache hit and a
  fanout round.

Goroutines, channels and timers are not modelled. Each actor handles one
message at a time, so each handler is a function from state and message to new
state and emitted effects. The effects are the probes to launch, the Put to
send, and whether to refresh. Time is an integer count of nanoseconds, as in
Go's `time.Duration`. The clock, the best-address lookup and the replies of the
upstream servers are parameters. Map iteration order is a parameter too: it
decides ties in the recheck, and the recheck lemmas hold for every order.

Behaviour of resolver.go worth noting, which the model keeps as written:

- Discover stores no placeholder for a new address (resolver.go:237-244).
  So an address sighted twice before its first probe result is probed
  twice (`Tracker.DiscoverTwiceProbesTwice`).
- `putincache` treats a running minimum TTL of 0 as "unset", so an answer with
  TTL 0 resets the minimum instead of pinning it at 0 (resolver.go:368-370,
  `Cache.ZeroTtlResetsMinimum`).
- `iscachable` does not check the question class (resolver.go:288-297).
  A type-A question of any class is cached and looked up
  (`Dispatch.AnyClassIsLookedUp`).
- Get replaces the stored answers by one 60-second record for the best address
  whenever BestOf answers non-empty, even when only one record is stored
  (resolver.go:332-340).

## Model

| member | source | states |
|---|---|---|
| `Icmp.MakePingRequest` | resolver.go:37-68 | The packet is exactly `pktlen` bytes. Byte 0 is 8 (echo request) and byte 1 is 0. Bytes 4-5 and 6-7 hold the low 16 bits of id and sequence, big-endian. Payload byte 8+k is filler[k mod len(filler)]. For any packet no longer than an IP datagram, bytes 2-3 hold the complement of the folded sum computed with those bytes zero. The packet then passes RFC 1071 verification with little-endian and with big-endian words. |
| `Icmp.UnsummedPacket` | pingbench.go:25-35 | Before the checksum, the buffer has the requested length and the echo-request header with zero checksum bytes. Id and sequence are big-endian, and the payload cycles through the filler. |
| `Icmp.Copy` | resolver.go:39 | Go's `copy` into a slice: the length is kept, the source prefix overwrites, and the rest of the destination is kept. |
| `Icmp.RepeatIndex` | pingbench.go:25-26 | `bytes.Repeat` produces len(filler)*count bytes, and byte i is filler[i mod len(filler)]. |
| `Icmp.RepeatCovers` | resolver.go:39 | Repeating the filler (pktlen-8)/len(filler)+1 times yields more than pktlen-8 bytes. So `copy` fills the whole payload. |
| `Icmp.SplitLow16` | resolver.go:45-48 | Writing `uint8(x >> 8)` and `uint8(x & 0xff)` stores the low 16 bits of x in big-endian order, negative x included. |
| `Icmp.WordSum` | resolver.go:50-58 | The loop's uint32 accumulator ends at the 16-bit little-endian word sum, odd tail byte included, modulo 2^32. It equals the exact sum when the packet fits an IP datagram. |
| `Icmp.Sum16LEFits` | pingbench.go:38-45 | For a packet of at most 65535 bytes the word sum never exceeds the uint32 range. |
| `Icmp.Fold16` | resolver.go:59-60 | The RFC 1071 end-around-carry fold is at most 0xFFFF. It is congruent to its input modulo 0xFFFF, and zero only for a zero input. |
| `Icmp.FoldTwiceMatchesCarryLoop` | pingbench.go:46-47 | Two folds of a 32-bit sum, truncated to 16 bits, equal the carry loop of RFC 1071 section 4.1. |
| `Icmp.Fold16Step` | resolver.go:59 | One fold step leaves the end-around-carry sum unchanged. |
| `Icmp.FoldOfMultiple` | resolver.go:59-65 | A sum verifies (its fold is 0xFFFF) exactly when it is a positive multiple of 0xFFFF. |
| `Icmp.ComplementBytes` | resolver.go:64-65 | The two checksum bytes taken from `^s` hold 0xFFFF minus the low 16 bits of s, little-endian: byte 2 gets the low byte and byte 3 the high byte. |
| `Icmp.ChecksumField` | pingbench.go:43-52 | The bytes written at positions 2-3 hold the complement of the folded sum. |
| `Icmp.XorZero` | resolver.go:62-65 | XOR into a zero byte stores the value, so `^=` on the zeroed checksum bytes is an assignment. |
| `Icmp.XorBits` | resolver.go:64-65 | Bitwise XOR of two n-bit values is again an n-bit value. |
| `Icmp.PairSumSwap` | resolver.go:53-55 | Swapping the byte order of every word multiplies the sum by 0x100, modulo 0xFFFF. |
| `Icmp.ByteOrderIndependence` | resolver.go:50-58 | RFC 1071 section 2(B): the little-endian and big-endian word sums differ by a factor of 0x100 modulo 0xFFFF. So both or neither are multiples of 0xFFFF. |
| `Icmp.ChecksumMakesPacketValid` | pingbench.go:37-52 | A packet with the complement of its zero-checksum fold placed in bytes 2-3 verifies in both byte orders. |
| `Dns.Addrs` | resolver.go:173-177 | The addresses of the A records, in order. There are never more of them than records. |
| `Dns.AddrsOfAllA` | resolver.go:322-324 | On a list of A records, the addresses correspond one for one to the records. |
| `Dns.InAddrs` | resolver.go:173-177 | An address is listed exactly when some A record carries it. |
| `Dns.IsCachable` | resolver.go:288-297 | A response is cacheable exactly when it has one question and that question has type A (1). The class is not consulted. |
| `Dns.CachabilityIgnoresClass` | resolver.go:288-297 | Cachability depends only on the question count and type. Class, name and answers never change it. |
| `Tracker.ProbeReading` | resolver.go:215-223 | A probe reading records its outcome and the time it was taken. A successful probe carries the measured latency, and a failed one a zero timing. |
| `Tracker.Discover` | resolver.go:237-244 | Discover leaves the map as it is. It asks for at most one probe, of that address, exactly when the address has no entry. |
| `Tracker.Update` | resolver.go:245-247 | Update overwrites the one key and leaves every other entry unchanged. |
| `Tracker.DiscoverAll` | resolver.go:237-244 | A run of Discovers, each handled against the map the previous one left, leaves the map as it is: no Discover inserts anything. |
| `Tracker.DiscoverAllProbesUnknown` | resolver.go:237-244 | A run of Discovers probes exactly the sighted addresses without an entry, in order and with repeats. |
| `Tracker.DiscoverTwiceProbesTwice` | resolver.go:237-247 | Two sightings of a new address before its first reading give two probes. A sighting after a reading gives none. |
| `Tracker.BestScan` | resolver.go:249-261 | After n candidates the scan holds the first fastest qualifying candidate with its timing as the ceiling. With no qualifying candidate it holds none, and the ceiling is still one minute. |
| `Tracker.BestIndex` | resolver.go:248-262 | There is no pick exactly when no candidate qualifies. Otherwise the pick is the earliest fastest qualifying candidate. |
| `Tracker.BestOf` | resolver.go:248-262 | The answer is "" or a listed candidate that is present, up and under a minute. No qualifying candidate is faster. |
| `Tracker.BestOfSpec` | resolver.go:248-262 | "" comes back exactly when no candidate qualifies. Otherwise the answer is the earliest candidate with the minimum timing. |
| `Tracker.SlowOrDownNeverBest` | resolver.go:250-256 | A failed probe, or a timing of a minute or more, never wins. |
| `Tracker.SoleCandidateIsBest` | resolver.go:248-262 | When exactly one candidate in the list qualifies, it is returned, wherever it sits and whatever the other candidates are. |
| `Tracker.RecheckScan` | resolver.go:270-278 | After n keys the scan holds the oldest reading strictly before now, or nothing with the ceiling still at now. |
| `Tracker.RecheckPick` | resolver.go:268-278 | For every iteration order, nothing is picked exactly when no reading is older than now. Otherwise the pick holds a reading older than now, and no reading is older than it. |
| `Tracker.ScanCoversTable` | resolver.go:272-278 | The scan's minimum bounds the reading of every key in the map. |
| `Tracker.Recheck` | resolver.go:268-283 | The tick leaves the map as it is and asks for at most one probe, of an oldest stale entry. When it asks for none, all readings are fresh or the pick was "". |
| `Tracker.RecheckQuietWhenFresh` | resolver.go:268-283 | On an empty or fully fresh map the tick asks for nothing. |
| `Tracker.RecheckProbesWhenStale` | resolver.go:268-283 | Whatever the iteration order, one stale entry is enough for the tick to ask for exactly one probe. |
| `Tracker.Step` | resolver.go:232-286 | Only an Update changes the map, and only a BestOf query answers with an address. |
| `Tracker.FailedProbeKeepsEntry` | resolver.go:245-247 | After a failed probe the address stays in the map and is never returned as best. |
| `Tracker.BestOfStableWithoutUpdate` | resolver.go:235-262 | Without an Update in between, BestOf gives the same answer again. |
| `Cache.Put` | resolver.go:350-352 | Put stores the records under the question, expiring ttl seconds from now. It adds that one key and leaves the others unchanged. |
| `Cache.Get` | resolver.go:317-349 | A miss gives nil and no refresh. A hit gives one 60-second A record for the best address when BestOf answers, and the stored records otherwise. A refresh is launched exactly when the entry has expired. |
| `Cache.Step` | resolver.go:313-356 | A Get never changes the map, and a Put answers nothing. |
| `Cache.PutThenGet` | resolver.go:317-352 | A Get before the Put expires is a fresh hit. It serves the stored records, or one 60-second record for one of their addresses. |
| `Cache.StaleServedAndRefreshed` | resolver.go:341-346 | An expired entry is still served and asks for a refresh. Since Get leaves the map unchanged, each Get before the refresh's Put lands does so again. |
| `Cache.AnswersFold` | resolver.go:366-377 | The inner loop keeps the question and never shrinks the list of records built so far. |
| `Cache.AnswersFoldRecords` | resolver.go:366-377 | The inner loop keeps the records it started with as a prefix. It appends one record per A answer, under the question's name and with the same address, and nothing else. |
| `Cache.AnswersFoldRunningMin` | resolver.go:366-370 | Started from the running minimum over earlier answers, the inner loop ends at the running minimum over those answers and its own. |
| `Cache.AnswersFoldRebuilds` | resolver.go:366-377 | The inner loop appends, in order, one A record per A answer under the question's name. Each record carries the running minimum of every TTL seen up to and including its own answer's, across earlier results too. |
| `Cache.AnswersFoldMin` | resolver.go:366-370 | The inner loop carries the running minimum through every answer's TTL, A or not. |
| `Cache.ResultsFoldRecords` | resolver.go:362-382 | The records built are the A records of the cacheable results, address for address, all of them A records. |
| `Cache.ResultsFoldRebuilds` | resolver.go:362-382 | The records built over all results are the rebuild of the cacheable results: each result's A answers in order, under that result's own question name, each with the running minimum TTL up to it. |
| `Cache.ResultsFoldMinAndQuestion` | resolver.go:362-382 | The minimum runs over every answer of the cacheable results. The question is that of the last cacheable result. |
| `Cache.PutInCache` | resolver.go:358-387 | A Put is sent exactly when the cacheable results hold an A record. Its records are those A records in order, and only A records. Each record is filed under its own result's question name and carries the running minimum TTL up to its answer. The Put's question is that of the last cacheable result. Its TTL is the running minimum over every answer of the cacheable results, A or not. |
| `Cache.LastQuestionOfAddrs` | resolver.go:362-365 | If the cacheable results hold an A record, some result was cacheable. |
| `Cache.MinFoldIsMin` | resolver.go:368-370 | Over non-zero TTLs, the running minimum started unset is the minimum. |
| `Cache.PutTtlIsMinimum` | resolver.go:358-387 | With no zero TTL, the Put's TTL is the minimum over all answers of the cacheable results, A and non-A alike. |
| `Cache.ZeroTtlResetsMinimum` | resolver.go:368-370 | A zero TTL resets the minimum. The Put's TTL is the minimum after the last zero, or zero when the zero comes last. |
| `Cache.PutInCacheKeepsWellTyped` | resolver.go:371-376 | Writing the Put keeps every cached answer A-only. This is what makes the type assertion at resolver.go:323 safe. |
| `Cache.SeqMin` | resolver.go:368-370 | The minimum is in the list and is at most every element. |
| `Fanout.Collect` | resolver.go:157-182 | Every reply produces exactly one log line. |
| `Fanout.FirstAnsweredInPrefix` | resolver.go:157-163 | Whether a reply is the first with a response depends only on the replies up to it. |
| `Fanout.CollectForwardsFirst` | resolver.go:157-163 | Exactly the first reply with a response is forwarded. Nothing is forwarded iff every exchange failed. |
| `Fanout.CollectLogStep` | resolver.go:159-168 | Each reply adds one log line, for its server, marked winner exactly when nothing was sent yet and it carries a response. |
| `Fanout.CollectLogsArrivals` | resolver.go:157-168 | Line i of the log is for the server of the i-th reply to arrive. |
| `Fanout.CollectMarksWinner` | resolver.go:159-168 | A log line carries the winner mark exactly when its reply is the first with a response. |
| `Fanout.AtMostOneWinner` | resolver.go:159-168 | At most one log line carries the winner mark. |
| `Fanout.CollectKeepsCachable` | resolver.go:171-181 | The responses kept are exactly the cacheable ones, every one of them, in arrival order. Some response is kept exactly when some reply is cacheable. |
| `Fanout.CollectDiscovers` | resolver.go:171-179 | The addresses sent to the tracker are the A addresses of the kept responses, in order. |
| `Fanout.MultiDns` | resolver.go:157-191 | `putincache` runs iff some reply is cacheable. A Put is sent exactly when some address was sent to the tracker. It holds only A records, for exactly those addresses, rebuilt from the cacheable replies in arrival order. |
| `Fanout.RoundTtlIsMinimum` | resolver.go:157-191 | With no zero TTL among the cacheable replies' answers, the round's Put carries the minimum TTL over every answer of every cacheable reply. |
| `Dispatch.RunQuery` | resolver.go:389-411 | A cache answer comes only for a cacheable query without forcemiss and with an entry. Otherwise the reply is a fanout round. |
| `Dispatch.CacheConsultedOnlyWhenCachable` | resolver.go:393-403 | Without cachability, or with forcemiss, the reply goes to the fanout and does not depend on the cache. |
| `Dispatch.HitServedFromCache` | resolver.go:393-402 | A hit returns the query with the cache's answers, and refreshes exactly when the entry is stale. |
| `Dispatch.MissAnsweredByFirstResponse` | resolver.go:405-409 | On a miss the caller gets the first response that arrived, and nothing iff every upstream failed. |
| `Dispatch.AnyClassIsLookedUp` | resolver.go:393 | A type-A question of any class is looked up in the cache. |
| `Dispatch.StaleHitRefreshesThroughFanout` | resolver.go:342-345 | A stale hit is served and triggers `runquery(msg, true)`, which always goes to the fanout. |
| `Dispatch.RoundThenHit` | resolver.go:189-191 | After a round's Put, the same query before expiry is a fresh hit. It serves only A records whose addresses the round discovered. |

## Left out

- `singleping` and `pingtest` (resolver.go and pingbench.go): raw ICMP sockets, deadlines and wall-clock latency are I/O. A probe's outcome enters as a `ProbeReading`.
- `singlequery`, `dns.Client.Exchange` and `handleRequest`: upstream exchanges are network I/O. Their replies enter as a sequence of outcomes in arrival order.
- `dns.NewRR` and the text form of records: a rebuilt record is an `ARecord` value with the same name, TTL and address. The parse error it ignores cannot happen for the lines it is given.
- Goroutines, channels, `select` and the `time.After` timers: the actors are sequential transition functions. The order in which messages interleave is not modelled.
- The blocking of `runquery` when every upstream fails is modelled only as the absence of an answer (`Fanned(None, …)`).
- The timers of the tracker (resolver.go:263-268): both `time.After` timers are created anew on every pass of its `select`. So the recheck fires only after a full second with no other message, and the ten-second dump never fires. The model offers the recheck as a message that may come at any time, which covers every time it can fire.
- The ten-second dump of the tracker's map, and all `Printf` and log output, including the timing text of the fanout log. The "W" winner mark is kept.
- The data race on the request message is not modelled. `runquery` writes `r.Answer` on a cache hit (resolver.go:399), while the refresh round it may have started (resolver.go:345) reads the same message in its exchanges and its question loop (resolver.go:130, 185).
- `main` (flags, JSON configuration, default servers, `GOMAXPROCS`), `poc.go` (an HTTP race) and `dnsproxy.go` (a single-upstream forwarder) are not part of this model.
- Icmp.MakePingRequest: requires `pktlen >= 8` and a non-empty filler, because the code panics otherwise (slicing `p[8:]` out of range, and a division by `len(filler)`). Those panics are not modelled. The checksum properties are stated only for packets of at most 65535 bytes, because for longer buffers the uint32 accumulator can wrap. The bytes produced are still modelled exactly for every length.
- Tracker.BestOfSpec: assumes the empty address does not qualify. The code cannot tell a best of "" from "no best", and addresses formatted from A records are never empty.
- Tracker.SlowOrDownNeverBest: stated for non-empty addresses, for the same reason.
- Tracker.FailedProbeKeepsEntry: stated for non-empty addresses, for the same reason.
- Tracker.RecheckProbesWhenStale: assumes no key is the empty address, because the code skips a recheck whose pick is "".
- Cache.Get: requires the stored entry to hold only A records, because the code's type assertion panics otherwise. `Cache.PutInCacheKeepsWellTyped` shows that every Put the resolver sends keeps this true.

=== FILE: cache.dfy ===
/**
 * The cache actor (`cacheservice`) and the function that prepares its
 * writes (`putincache`). The actor owns a map from question to stored
 * answers and expiry; Get and Put are pure transitions. The best-address
 * lookup Get makes through the tracker is a function parameter, the clock is
 * a parameter, and the forced refresh Get launches (`go runquery(msg, true)`)
 * is returned as a flag.
 */
module Cache {
  import opened Wrappers
  import opened Dns
  import opened Clock

  /** The TTL of the record Get synthesises for the best address. */
  const BestTtl: uint32 := 60

  /** `cacheobj`: the stored answers and the instant they go stale. */
  datatype CacheObj = CacheObj(ans: seq<RR>, expire: int)

  type CacheMap = map<Question, CacheObj>

  /** `putrequest`. */
  datatype PutRequest = PutRequest(question: Question, result: seq<RR>, ttl: uint32)

  /** Every stored answer list holds only A records. */
  predicate WellTyped(c: CacheMap) {
    forall q :: q in c ==> AllA(c[q].ans)
  }

  // ---------------------------------------------------------------------------
  // Put
  // ---------------------------------------------------------------------------

  /** The Put handler: overwrite the entry, no merge with what was there,
      expiring `ttl` seconds from now. */
  function Put(c: CacheMap, put: PutRequest, now: int): (r: CacheMap)
    ensures put.question in r
    ensures r[put.question].ans == put.result
    ensures r[put.question].expire - now == put.ttl * Second
    ensures r.Keys == c.Keys + {put.question}
    ensures forall q :: q in c && q != put.question ==> r[q] == c[q]
  {
    c[put.question := CacheObj(put.result, now + put.ttl * Second)]
  }

  // ---------------------------------------------------------------------------
  // Get
  // ---------------------------------------------------------------------------

  /** The answer to a Get (None is the nil slice of a miss) and whether a
      forced refresh of the question is launched. */
  datatype GetResult = GetResult(answer: Option<seq<RR>>, refresh: bool)

  /** The Get handler. On a hit the stored addresses go to `bestOf`; a
      non-empty reply is served as one A record with the question's name and
      a 60-second TTL, otherwise the stored answers are served as they are.
      A stale entry is still served, and a refresh is asked for. */
  function Get(c: CacheMap, q: Question, now: int, bestOf: seq<string> -> string): (r: GetResult)
    requires q in c ==> AllA(c[q].ans)   // `a.(*dns.A)` panics on any other record
    ensures q !in c ==> r == GetResult(None, false)
    ensures q in c ==> r.answer.Some?
    ensures r.refresh <==> q in c && c[q].expire < now
    ensures q in c ==>
              var stored := c[q].ans;
              if stored != [] && bestOf(Addrs(stored)) != ""
              then r.answer.value == [ARecord(q.name, BestTtl, bestOf(Addrs(stored)))]
              else r.answer.value == stored
  {
    if q in c then
      var obj := c[q];
      var allips := Addrs(obj.ans);
      AddrsOfAllA(obj.ans);
      var best := if |allips| > 0 then bestOf(allips) else "";
      var answer := if best != "" then [ARecord(q.name, BestTtl, best)] else obj.ans;
      GetResult(Some(answer), obj.expire < now)
    else
      GetResult(None, false)
  }

  /** One message to the cache actor. */
  datatype Event = GetReq(q: Question) | PutReq(put: PutRequest)

  /** What one message does: the new map and, for a Get, its result. */
  datatype Output = Output(cache: CacheMap, got: GetResult)

  function Step(c: CacheMap, e: Event, now: int, bestOf: seq<string> -> string): (r: Output)
    requires WellTyped(c)
    ensures e.GetReq? ==> r.cache == c
    ensures e.PutReq? ==> r.cache == Put(c, e.put, now) && r.got == GetResult(None, false)
  {
    match e
    case GetReq(q) => Output(c, Get(c, q, now, bestOf))
    case PutReq(put) => Output(Put(c, put, now), GetResult(None, false))
  }

  /** A Put followed by a Get of the same question before expiry serves the
      written records, or one record for an address among them when `bestOf`
      only ever answers with a candidate it was given; no refresh is asked
      for. */
  lemma PutThenGet(c: CacheMap, put: PutRequest, now: int, later: int, bestOf: seq<string> -> string)
    requires AllA(put.result)
    requires now <= later <= now + put.ttl * Second
    requires forall cs: seq<string> :: bestOf(cs) == "" || bestOf(cs) in cs
    ensures var g := Get(Put(c, put, now), put.question, later, bestOf);
            && g.answer.Some?
            && !g.refresh
            && (|| g.answer.value == put.result
                || (&& |g.answer.value| == 1
                    && g.answer.value[0].ARecord?
                    && g.answer.value[0].ttl == BestTtl
                    && g.answer.value[0].addr in Addrs(put.result)))
  {
  }

  /** A Get on an expired entry still serves an answer and asks for a
      refresh. Get leaves the map unchanged, so every Get until the refresh's
      Put lands does the same. */
  lemma StaleServedAndRefreshed(c: CacheMap, q: Question, now: int, bestOf: seq<string> -> string)
    requires q in c && AllA(c[q].ans) && c[q].expire < now
    ensures Get(c, q, now, bestOf).answer.Some? && Get(c, q, now, bestOf).refresh
  {
  }

  // ---------------------------------------------------------------------------
  // putincache
  // ---------------------------------------------------------------------------

  /** The locals of `putincache` between iterations: the records built so
      far, the running minimum TTL (0 meaning "unset") and the question of
      the last cacheable result. */
  datatype PutAcc = PutAcc(newans: seq<RR>, minttl: uint32, question: Question)

  /** The zero value of `dns.Question`. */
  const NoQuestion := Question("", 0, 0)

  /** The minimum-TTL update of `putincache`: an unset (zero) minimum takes
      the record's TTL, and so does a larger one. */
  function MinStep(minttl: uint32, ttl: uint32): uint32 {
    if minttl == 0 || minttl > ttl then ttl else minttl
  }

  /** The inner loop over one result's answers: track the TTL of every
      record, rebuild every A record under the question's name with the
      minimum TTL seen so far. */
  function AnswersFold(acc: PutAcc, qname: string, answers: seq<RR>): (r: PutAcc)
    ensures r.question == acc.question
    ensures |acc.newans| <= |r.newans|
  {
    if answers == [] then acc
    else
      var prev := AnswersFold(acc, qname, answers[..|answers| - 1]);
      var ans := answers[|answers| - 1];
      var minttl := MinStep(prev.minttl, ans.ttl);
      var newans := if ans.ARecord? then prev.newans + [ARecord(qname, minttl, ans.addr)]
                    else prev.newans;
      PutAcc(newans, minttl, prev.question)
  }

  /** The outer loop over the results: non-cacheable ones are skipped. */
  function ResultsFold(acc: PutAcc, results: seq<Msg>): PutAcc {
    if results == [] then acc
    else
      var prev := ResultsFold(acc, results[..|results| - 1]);
      var r := results[|results| - 1];
      if IsCachable(r) then
        AnswersFold(prev.(question := r.question[0]), r.question[0].name, r.answer)
      else prev
  }

  /** `putincache`: the Put it sends, if any. It sends one exactly when the
      cacheable results hold an A record. Its records are those A records in
      order, each rebuilt under its own result's question name with the
      running minimum TTL up to it. Its question is that of the last
      cacheable result, and its TTL the running minimum over every answer of
      the cacheable results. */
  function PutInCache(results: seq<Msg>): (r: Option<PutRequest>)
    ensures r.Some? <==> Addrs(CachableAnswers(results)) != []
    ensures r.Some? ==>
              && r.value.result == Rebuilt(results)
              && Addrs(r.value.result) == Addrs(CachableAnswers(results))
              && AllA(r.value.result)
              && LastCachableQuestion(results).Some?
              && r.value.question == LastCachableQuestion(results).value
              && r.value.ttl == MinFold(0, Ttls(CachableAnswers(results)))
  {
    var acc := ResultsFold(PutAcc([], 0, NoQuestion), results);
    ResultsFoldRecords(results);
    ResultsFoldMinAndQuestion(results);
    ResultsFoldRebuilds(results);
    AddrsOfAllA(acc.newans);
    if |acc.newans| > 0 then
      LastQuestionOfAddrs(results);
      Some(PutRequest(acc.question, acc.newans, acc.minttl))
    else None
  }

  // Reference definitions over the cacheable results.

  /** The answer records of the cacheable results, concatenated in order. */
  function CachableAnswers(results: seq<Msg>): seq<RR> {
    if results == [] then []
    else
      var r := results[|results| - 1];
      CachableAnswers(results[..|results| - 1]) + (if IsCachable(r) then r.answer else [])
  }

  /** The question of the last cacheable result, if there is one. */
  function LastCachableQuestion(results: seq<Msg>): Option<Question> {
    if results == [] then None
    else
      var r := results[|results| - 1];
      if IsCachable(r) then Some(r.question[0]) else LastCachableQuestion(results[..|results| - 1])
  }

  /** The records `putincache` rebuilds from the cacheable results: for
      each cacheable result in order, its A answers under its own question
      name, each carrying the minimum of every TTL seen up to and including
      its own. */
  function Rebuilt(results: seq<Msg>): seq<RR> {
    if results == [] then []
    else
      var init := results[..|results| - 1];
      var m := results[|results| - 1];
      Rebuilt(init)
        + (if IsCachable(m) then RebuiltAnswers(m.question[0].name, CachableAnswers(init), m.answer)
           else [])
  }

  /** The records rebuilt from one result's `answers` under `name`, `before`
      being the answers of the cacheable results seen before it. */
  function RebuiltAnswers(name: string, before: seq<RR>, answers: seq<RR>): seq<RR> {
    if answers == [] then []
    else
      var k := |answers| - 1;
      RebuiltAnswers(name, before, answers[..k])
        + Refiled(name, MinFold(0, Ttls(before + answers)), answers[k])
  }

  /** What one answer contributes to the rebuilt list: an A record under the
   * given name and TTL, or nothing for any other record. */
  function Refiled(name: string, ttl: uint32, rr: RR): seq<RR> {
    if rr.ARecord? then [ARecord(name, ttl, rr.addr)] else []
  }

  /** The TTLs of a list of records, in order. */
  function Ttls(rrs: seq<RR>): (r: seq<uint32>)
    ensures |r| == |rrs|
    ensures forall i :: 0 <= i < |rrs| ==> r[i] == rrs[i].ttl
  {
    if rrs == [] then [] else Ttls(rrs[..|rrs| - 1]) + [rrs[|rrs| - 1].ttl]
  }

  /** The smallest element of a non-empty list. */
  function SeqMin(s: seq<uint32>): (m: uint32)
    requires |s| > 0
    ensures m in s
    ensures forall i :: 0 <= i < |s| ==> m <= s[i]
  {
    if |s| == 1 then s[0]
    else
      var m := SeqMin(s[..|s| - 1]);
      if s[|s| - 1] < m then s[|s| - 1] else m
  }

  /** The running minimum of `putincache` started from `m` over a list of TTLs. */
  function MinFold(m: uint32, ttls: seq<uint32>): uint32 {
    if ttls == [] then m else MinStep(MinFold(m, ttls[..|ttls| - 1]), ttls[|ttls| - 1])
  }

  lemma {:induction false} MinFoldAppend(m: uint32, a: seq<uint32>, b: seq<uint32>)
    ensures MinFold(m, a + b) == MinFold(MinFold(m, a), b)
    decreases |b|
  {
    if b == [] {
      assert a + b == a;
    } else {
      assert (a + b)[..|a + b| - 1] == a + b[..|b| - 1];
      MinFoldAppend(m, a, b[..|b| - 1]);
    }
  }

  lemma {:induction false} TtlsAppend(a: seq<RR>, b: seq<RR>)
    ensures Ttls(a + b) == Ttls(a) + Ttls(b)
  {
  }

  /** The inner loop appends the A records of `answers`, rebuilt under
      `qname`, to the records built so far. */
  lemma {:induction false} AnswersFoldRecords(acc: PutAcc, qname: string, answers: seq<RR>)
    ensures var r := AnswersFold(acc, qname, answers);
            && Addrs(r.newans) == Addrs(acc.newans) + Addrs(answers)
            && r.newans[..|acc.newans|] == acc.newans
            && (forall i :: |acc.newans| <= i < |r.newans| ==>
                  r.newans[i].ARecord? && r.newans[i].name == qname)
  {
    AnswersFoldAddrs(acc, qname, answers);
    AnswersFoldExtends(acc, qname, answers);
    AnswersFoldNames(acc, qname, answers);
  }

  lemma {:induction false} AnswersFoldAddrs(acc: PutAcc, qname: string, answers: seq<RR>)
    ensures Addrs(AnswersFold(acc, qname, answers).newans) == Addrs(acc.newans) + Addrs(answers)
  {
    if answers != [] {
      var init := answers[..|answers| - 1];
      var ans := answers[|answers| - 1];
      AnswersFoldAddrs(acc, qname, init);
      var prev := AnswersFold(acc, qname, init);
      var r := AnswersFold(acc, qname, answers);
      AnswersFoldStep(acc, qname, answers);
      assert answers == init + [ans];
      AddrsAppend(init, [ans]);
      AddrsAppend(prev.newans, Refiled(qname, r.minttl, ans));
      assert Addrs(Refiled(qname, r.minttl, ans)) == Addrs([ans]);
    }
  }

  lemma {:induction false} AnswersFoldExtends(acc: PutAcc, qname: string, answers: seq<RR>)
    ensures var r := AnswersFold(acc, qname, answers);
            r.newans[..|acc.newans|] == acc.newans
  {
    if answers != [] {
      var init := answers[..|answers| - 1];
      AnswersFoldExtends(acc, qname, init);
      var prev := AnswersFold(acc, qname, init);
      var r := AnswersFold(acc, qname, answers);
      AnswersFoldStep(acc, qname, answers);
      assert r.newans[..|acc.newans|] == prev.newans[..|acc.newans|];
    }
  }

  lemma {:induction false} AnswersFoldNames(acc: PutAcc, qname: string, answers: seq<RR>)
    ensures var r := AnswersFold(acc, qname, answers);
            forall i :: |acc.newans| <= i < |r.newans| ==>
              r.newans[i].ARecord? && r.newans[i].name == qname
  {
    if answers != [] {
      var init := answers[..|answers| - 1];
      AnswersFoldNames(acc, qname, init);
      var prev := AnswersFold(acc, qname, init);
      var r := AnswersFold(acc, qname, answers);
      AnswersFoldStep(acc, qname, answers);
      forall i | |acc.newans| <= i < |r.newans|
        ensures r.newans[i].ARecord? && r.newans[i].name == qname
      {
        if i < |prev.newans| {
          assert r.newans[i] == prev.newans[i];
        }
      }
    }
  }

  /** The inner loop carries the running minimum through every TTL. */
  lemma {:induction false} AnswersFoldMin(acc: PutAcc, qname: string, answers: seq<RR>)
    ensures AnswersFold(acc, qname, answers).minttl == MinFold(acc.minttl, Ttls(answers))
  {
    if answers != [] {
      AnswersFoldMin(acc, qname, answers[..|answers| - 1]);
      assert Ttls(answers)[..|answers| - 1] == Ttls(answers[..|answers| - 1]);
    }
  }

  /** The whole fold's records over the results. */
  lemma {:induction false} ResultsFoldRecords(results: seq<Msg>)
    ensures var r := ResultsFold(PutAcc([], 0, NoQuestion), results);
            && Addrs(r.newans) == Addrs(CachableAnswers(results))
            && AllA(r.newans)
  {
    if results != [] {
      var init := results[..|results| - 1];
      var m := results[|results| - 1];
      ResultsFoldRecords(init);
      var prev := ResultsFold(PutAcc([], 0, NoQuestion), init);
      if IsCachable(m) {
        var acc := prev.(question := m.question[0]);
        AnswersFoldRecords(acc, m.question[0].name, m.answer);
        AddrsAppend(CachableAnswers(init), m.answer);
        var r := AnswersFold(acc, m.question[0].name, m.answer);
        assert ResultsFold(PutAcc([], 0, NoQuestion), results) == r;
        assert CachableAnswers(results) == CachableAnswers(init) + m.answer;
        forall i | 0 <= i < |r.newans|
          ensures r.newans[i].ARecord?
        {
          if i < |prev.newans| {
            assert r.newans[i] == r.newans[..|prev.newans|][i];
          }
        }
      } else {
        assert ResultsFold(PutAcc([], 0, NoQuestion), results) == prev;
        assert CachableAnswers(results) == CachableAnswers(init);
      }
    }
  }

  /** The whole fold's minimum and question over the results. */
  lemma {:induction false} ResultsFoldMinAndQuestion(results: seq<Msg>)
    ensures var r := ResultsFold(PutAcc([], 0, NoQuestion), results);
            && r.minttl == MinFold(0, Ttls(CachableAnswers(results)))
            && (LastCachableQuestion(results).Some? ==> r.question == LastCachableQuestion(results).value)
  {
    if results != [] {
      var init := results[..|results| - 1];
      var m := results[|results| - 1];
      ResultsFoldMinAndQuestion(init);
      var prev := ResultsFold(PutAcc([], 0, NoQuestion), init);
      if IsCachable(m) {
        var acc := prev.(question := m.question[0]);
        AnswersFoldMin(acc, m.question[0].name, m.answer);
        TtlsAppend(CachableAnswers(init), m.answer);
        MinFoldAppend(0, Ttls(CachableAnswers(init)), Ttls(m.answer));
      } else {
        assert ResultsFold(PutAcc([], 0, NoQuestion), results) == prev;
        assert CachableAnswers(results) == CachableAnswers(init);
        assert LastCachableQuestion(results) == LastCachableQuestion(init);
      }
    }
  }

  /** The inner loop, started from the running minimum over `before`,
      continues it over `answers`. */
  lemma AnswersFoldRunningMin(acc: PutAcc, qname: string, answers: seq<RR>, before: seq<RR>)
    requires acc.minttl == MinFold(0, Ttls(before))
    ensures AnswersFold(acc, qname, answers).minttl == MinFold(0, Ttls(before + answers))
  {
    AnswersFoldMin(acc, qname, answers);
    TtlsAppend(before, answers);
    MinFoldAppend(0, Ttls(before), Ttls(answers));
  }

  /** The inner loop, started after the answers `before`, appends the
      records rebuilt from `answers` under `qname`. */
  lemma {:induction false} AnswersFoldRebuilds(acc: PutAcc, qname: string, answers: seq<RR>,
                                               before: seq<RR>)
    requires acc.minttl == MinFold(0, Ttls(before))
    ensures AnswersFold(acc, qname, answers).newans
            == acc.newans + RebuiltAnswers(qname, before, answers)
  {
    if answers != [] {
      var k := |answers| - 1;
      var prev := AnswersFold(acc, qname, answers[..k]);
      var r := AnswersFold(acc, qname, answers);
      var last := Refiled(qname, r.minttl, answers[k]);
      AnswersFoldRebuilds(acc, qname, answers[..k], before);
      AnswersFoldRunningMin(acc, qname, answers, before);
      AnswersFoldStep(acc, qname, answers);
      assert r.newans == (acc.newans + RebuiltAnswers(qname, before, answers[..k])) + last;
    } else {
      assert acc.newans + [] == acc.newans;
    }
  }

  /** One more answer in the inner loop. */
  lemma AnswersFoldStep(acc: PutAcc, qname: string, answers: seq<RR>)
    requires answers != []
    ensures var r := AnswersFold(acc, qname, answers);
            r.newans == AnswersFold(acc, qname, answers[..|answers| - 1]).newans
                        + Refiled(qname, r.minttl, answers[|answers| - 1])
  {
  }

  /** The whole fold's records are the rebuild of the cacheable results. */
  lemma {:induction false} ResultsFoldRebuilds(results: seq<Msg>)
    ensures ResultsFold(PutAcc([], 0, NoQuestion), results).newans == Rebuilt(results)
  {
    if results != [] {
      var init := results[..|results| - 1];
      var m := results[|results| - 1];
      ResultsFoldRebuilds(init);
      var prev := ResultsFold(PutAcc([], 0, NoQuestion), init);
      if IsCachable(m) {
        ResultsFoldMinAndQuestion(init);
        AnswersFoldRebuilds(prev.(question := m.question[0]), m.question[0].name, m.answer,
                            CachableAnswers(init));
      } else {
        assert ResultsFold(PutAcc([], 0, NoQuestion), results) == prev;
        assert Rebuilt(results) == Rebuilt(init) + [];
      }
    }
  }

  lemma {:induction false} LastQuestionOfAddrs(results: seq<Msg>)
    requires Addrs(CachableAnswers(results)) != []
    ensures LastCachableQuestion(results).Some?
  {
    if results != [] {
      var init := results[..|results| - 1];
      if !IsCachable(results[|results| - 1]) {
        assert CachableAnswers(results) == CachableAnswers(init);
        LastQuestionOfAddrs(init);
        assert LastCachableQuestion(results) == LastCachableQuestion(init);
      }
    }
  }

  /** The running minimum, started unset, over TTLs none of which is zero, is
      their minimum. */
  lemma {:induction false} MinFoldIsMin(ttls: seq<uint32>)
    requires |ttls| > 0
    requires forall i :: 0 <= i < |ttls| ==> ttls[i] != 0
    ensures MinFold(0, ttls) == SeqMin(ttls)
  {
    if |ttls| > 1 {
      MinFoldIsMin(ttls[..|ttls| - 1]);
    }
  }

  /** When no answer of a cacheable result has TTL 0, the Put's TTL is the
      minimum TTL over all of their answers, A and non-A records alike. */
  lemma PutTtlIsMinimum(results: seq<Msg>)
    requires PutInCache(results).Some?
    requires forall rr :: rr in CachableAnswers(results) ==> rr.ttl != 0
    ensures |CachableAnswers(results)| > 0
    ensures PutInCache(results).value.ttl == SeqMin(Ttls(CachableAnswers(results)))
  {
    var all := CachableAnswers(results);
    forall i | 0 <= i < |Ttls(all)|
      ensures Ttls(all)[i] != 0
    {
      assert all[i] in all;
    }
    MinFoldIsMin(Ttls(all));
  }

  /** A zero TTL resets the running minimum: the Put's TTL is the minimum of
      the TTLs after the last zero one, and zero when the zero TTL comes last. */
  lemma ZeroTtlResetsMinimum(results: seq<Msg>, before: seq<uint32>, after: seq<uint32>)
    requires PutInCache(results).Some?
    requires Ttls(CachableAnswers(results)) == before + [0] + after
    requires forall i :: 0 <= i < |after| ==> after[i] != 0
    ensures after == [] ==> PutInCache(results).value.ttl == 0
    ensures after != [] ==> PutInCache(results).value.ttl == SeqMin(after)
  {
    MinFoldAppend(0, before + [0], after);
    var m := MinFold(0, before + [0]);
    assert m == 0 by {
      assert (before + [0])[..|before + [0]| - 1] == before;
    }
    if after != [] {
      MinFoldIsMin(after);
    }
  }

  /** Everything `putincache` writes keeps the cache's entries A-only, which
      is what the Get handler's type assertion needs. */
  lemma PutInCacheKeepsWellTyped(c: CacheMap, results: seq<Msg>, now: int)
    requires WellTyped(c) && PutInCache(results).Some?
    ensures WellTyped(Put(c, PutInCache(results).value, now))
  {
  }
}

=== FILE: clock.dfy ===
/**
 * Go's `time` units. Instants and durations are integer counts of
 * nanoseconds, as `time.Time` differences and `time.Duration` are.
 */
module Clock {
  const Second: int := 1_000_000_000
  /** `time.Minute`: the ceiling `BestOf` starts from. */
  const Minute: int := 60 * Second
}

=== FILE: dispatch.dfy ===
/**
 * The request dispatcher (`runquery`): a cacheable query that is not itself
 * a forced refresh is first looked up in the cache, and served from it on a
 * hit; every other query, and every miss, goes to the upstream fanout and
 * is answered with the first response that arrives.
 */
module Dispatch {
  import opened Wrappers
  import opened Dns
  import Cache
  import Fanout
  import Tracker
  import Clock

  /** The outcome of one query: served from the cache (with the refresh the
      Get may have launched), or by a fanout round. `answer` None is the
      case where every upstream failed and the caller is never answered. */
  datatype Reply =
    | CacheHit(msg: Msg, refresh: bool)
    | Fanned(answer: Option<Msg>, effects: Fanout.RoundEffects)

  /** `runquery(r, forcemiss)`. The cache, the clock, the tracker's
      best-address lookup and the replies the upstreams would give are
      parameters. */
  function RunQuery(r: Msg, forcemiss: bool, c: Cache.CacheMap, now: int,
                    bestOf: seq<string> -> string, outcomes: seq<Fanout.Outcome>): (reply: Reply)
    requires Cache.WellTyped(c)
    ensures reply.CacheHit? ==> IsCachable(r) && !forcemiss && r.question[0] in c
    ensures reply.Fanned? ==> reply.effects == Fanout.MultiDns(outcomes)
  {
    var fan := Fanout.MultiDns(outcomes);
    if IsCachable(r) && !forcemiss then
      var got := Cache.Get(c, r.question[0], now, bestOf);
      if got.answer.Some? then CacheHit(r.(answer := got.answer.value), got.refresh)
      else Fanned(fan.round.forwarded, fan)
    else Fanned(fan.round.forwarded, fan)
  }

  /** The cache is consulted only for a cacheable query that is not a forced
      refresh: for any other query the reply does not depend on the cache. */
  lemma CacheConsultedOnlyWhenCachable(r: Msg, forcemiss: bool, c1: Cache.CacheMap, c2: Cache.CacheMap,
                                       now: int, bestOf: seq<string> -> string, outcomes: seq<Fanout.Outcome>)
    requires Cache.WellTyped(c1) && Cache.WellTyped(c2)
    requires !IsCachable(r) || forcemiss
    ensures RunQuery(r, forcemiss, c1, now, bestOf, outcomes).Fanned?
    ensures RunQuery(r, forcemiss, c1, now, bestOf, outcomes) == RunQuery(r, forcemiss, c2, now, bestOf, outcomes)
  {
  }

  /** A hit is served from the cache: the query comes back with the cached
      (possibly substituted) answers, and the upstreams are not asked. */
  lemma HitServedFromCache(r: Msg, c: Cache.CacheMap, now: int,
                           bestOf: seq<string> -> string, outcomes: seq<Fanout.Outcome>)
    requires Cache.WellTyped(c)
    requires IsCachable(r) && r.question[0] in c
    ensures var reply := RunQuery(r, false, c, now, bestOf, outcomes);
            var got := Cache.Get(c, r.question[0], now, bestOf);
            && reply.CacheHit?
            && reply.msg.question == r.question
            && reply.msg.answer == got.answer.value
            && (reply.refresh <==> c[r.question[0]].expire < now)
  {
  }

  /** On a miss, or when the cache is bypassed, the caller gets the first
      response that arrived, and nothing at all when every upstream failed. */
  lemma MissAnsweredByFirstResponse(r: Msg, forcemiss: bool, c: Cache.CacheMap, now: int,
                                    bestOf: seq<string> -> string, outcomes: seq<Fanout.Outcome>)
    requires Cache.WellTyped(c)
    requires !IsCachable(r) || forcemiss || r.question[0] !in c
    ensures var reply := RunQuery(r, forcemiss, c, now, bestOf, outcomes);
            && reply.Fanned?
            && (reply.answer.None? <==> forall i :: 0 <= i < |outcomes| ==> outcomes[i].response.None?)
            && (forall i :: Fanout.IsFirstAnswered(outcomes, i) ==> reply.answer == outcomes[i].response)
  {
    Fanout.CollectForwardsFirst(outcomes);
  }

  /** The class of the question is never looked at: a single type-A question
      of any class, IN or not, is looked up in the cache. */
  lemma AnyClassIsLookedUp(name: string, qclass: nat, c: Cache.CacheMap, now: int,
                           bestOf: seq<string> -> string, outcomes: seq<Fanout.Outcome>)
    requires Cache.WellTyped(c)
    requires Question(name, TypeA, qclass) in c
    ensures RunQuery(Msg([Question(name, TypeA, qclass)], []), false, c, now, bestOf, outcomes).CacheHit?
  {
  }

  /** A stale hit is served and launches `runquery(msg, true)`, which goes
      to the upstreams whatever the cache holds. */
  lemma StaleHitRefreshesThroughFanout(r: Msg, c: Cache.CacheMap, now: int,
                                       bestOf: seq<string> -> string, outcomes: seq<Fanout.Outcome>)
    requires Cache.WellTyped(c)
    requires IsCachable(r) && r.question[0] in c && c[r.question[0]].expire < now
    ensures RunQuery(r, false, c, now, bestOf, outcomes).CacheHit?
    ensures RunQuery(r, false, c, now, bestOf, outcomes).refresh
    ensures RunQuery(r, true, c, now, bestOf, outcomes).Fanned?
  {
  }

  /** The whole loop with the tracker's own `BestOf`: a query answered from
      a round and then asked again before the entry expires is served from
      the cache, with the round's addresses or one of them. */
  lemma RoundThenHit(r: Msg, c: Cache.CacheMap, t: Tracker.Table, now: int, later: int,
                     outcomes: seq<Fanout.Outcome>, outcomes2: seq<Fanout.Outcome>)
    requires Cache.WellTyped(c)
    requires IsCachable(r)
    requires Fanout.MultiDns(outcomes).put.Some?
    requires Fanout.MultiDns(outcomes).put.value.question == r.question[0]
    requires now <= later <= now + Fanout.MultiDns(outcomes).put.value.ttl * Clock.Second
    ensures Cache.WellTyped(Cache.Put(c, Fanout.MultiDns(outcomes).put.value, now))
    ensures var c' := Cache.Put(c, Fanout.MultiDns(outcomes).put.value, now);
            var reply := RunQuery(r, false, c', later, cs => Tracker.BestOf(t, cs), outcomes2);
            && reply.CacheHit?
            && !reply.refresh
            && forall rr :: rr in reply.msg.answer ==>
                 rr.ARecord? && rr.addr in Fanout.MultiDns(outcomes).round.discovered
  {
    var put := Fanout.MultiDns(outcomes).put.value;
    Cache.PutInCacheKeepsWellTyped(c, Fanout.Collect(outcomes).allresults, now);
    var bestOf := cs => Tracker.BestOf(t, cs);
    Cache.PutThenGet(c, put, now, later, bestOf);
    var c' := Cache.Put(c, put, now);
    var got := Cache.Get(c', r.question[0], later, bestOf);
    forall rr | rr in got.answer.value
      ensures rr.ARecord? && rr.addr in Addrs(put.result)
    {
      if got.answer.value == put.result {
        var i :| 0 <= i < |put.result| && put.result[i] == rr;
        AddrsOfAllA(put.result);
        assert Addrs(put.result)[i] == rr.addr;
      }
    }
  }
}

=== FILE: dns.dfy ===
/**
 * The slice of the DNS message model the resolver's core relies on: a
 * question, an answer record and a message carrying lists of both. Wire
 * encoding, the record-text parser and every record type other than A are
 * outside the model; a record is either an A record or some other record.
 */
module Dns {

  /** Go's uint32, the width of a record TTL. */
  type uint32 = x: int | 0 <= x < 0x1_0000_0000

  /** `dns.TypeA`, the only question type the resolver caches. */
  const TypeA: nat := 1

  /** `dns.Question`: the cache key. */
  datatype Question = Question(name: string, qtype: nat, qclass: nat)

  /** `dns.RR`, as a tagged variant: the code only ever inspects the TTL of
      any record and the address of an A record. */
  datatype RR =
    | ARecord(name: string, ttl: uint32, addr: string)
    | OtherRecord(name: string, ttl: uint32)

  /** `dns.Msg`: the question and answer sections. */
  datatype Msg = Msg(question: seq<Question>, answer: seq<RR>)

  /** `iscachable`: a message with exactly one question, of type A. The
      class is not consulted. */
  predicate IsCachable(m: Msg) {
    |m.question| == 1 && m.question[0].qtype == TypeA
  }

  /** The addresses of the A records among `rrs`, in order. */
  function Addrs(rrs: seq<RR>): (r: seq<string>)
    ensures |r| <= |rrs|
  {
    if rrs == [] then []
    else
      var last := rrs[|rrs| - 1];
      Addrs(rrs[..|rrs| - 1]) + (if last.ARecord? then [last.addr] else [])
  }

  /** Every record of the list is an A record. */
  predicate AllA(rrs: seq<RR>) {
    forall i :: 0 <= i < |rrs| ==> rrs[i].ARecord?
  }

  lemma {:induction false} AddrsAppend(a: seq<RR>, b: seq<RR>)
    ensures Addrs(a + b) == Addrs(a) + Addrs(b)
    decreases |b|
  {
    if b == [] {
      assert a + b == a;
    } else {
      var b' := b[..|b| - 1];
      assert (a + b)[..|a + b| - 1] == a + b';
      AddrsAppend(a, b');
    }
  }

  /** On a list of A records, the addresses are those of the records one for
      one: this is what makes `a.(*dns.A)` in the cache safe. */
  lemma {:induction false} AddrsOfAllA(rrs: seq<RR>)
    requires AllA(rrs)
    ensures |Addrs(rrs)| == |rrs|
    ensures forall i :: 0 <= i < |rrs| ==> Addrs(rrs)[i] == rrs[i].addr
  {
    if rrs != [] {
      AddrsOfAllA(rrs[..|rrs| - 1]);
    }
  }

  /** An address is among `Addrs(rrs)` exactly when some A record carries it. */
  lemma {:induction false} InAddrs(rrs: seq<RR>, ip: string)
    ensures ip in Addrs(rrs) <==> exists i :: 0 <= i < |rrs| && rrs[i].ARecord? && rrs[i].addr == ip
  {
    if rrs != [] {
      var init := rrs[..|rrs| - 1];
      InAddrs(init, ip);
      if ip in Addrs(init) {
        var i :| 0 <= i < |init| && init[i].ARecord? && init[i].addr == ip;
        assert rrs[i] == init[i];
      }
      if exists i :: 0 <= i < |rrs| && rrs[i].ARecord? && rrs[i].addr == ip {
        var i :| 0 <= i < |rrs| && rrs[i].ARecord? && rrs[i].addr == ip;
        if i < |init| {
          assert init[i] == rrs[i];
        }
      }
    }
  }

  /** `iscachable` looks only at the number of questions and the type of the
      first: changing the question's class or name, or the answers, never
      changes the verdict. */
  lemma CachabilityIgnoresClass(m: Msg, name: string, qclass: nat, answer: seq<RR>)
    requires |m.question| == 1
    ensures IsCachable(Msg([m.question[0].(name := name, qclass := qclass)], answer))
            == IsCachable(m)
  {
  }
}

=== FILE: fanout.dfy ===
/**
 * The collection loop of `multidns`: the upstream replies are consumed in
 * arrival order, the first one that carries a response is forwarded to the
 * waiting caller, every reply is logged, the A addresses of cacheable
 * responses are handed to the tracker, and the cacheable responses are kept
 * for `putincache`. The concurrent exchanges themselves are outside the
 * model; their replies arrive as a sequence.
 */
module Fanout {
  import opened Wrappers
  import opened Dns
  import Cache

  /** `dnsresponse`: one upstream's reply; `None` is a failed exchange. */
  datatype Outcome = Outcome(server: string, response: Option<Msg>)

  /** One log line of the round; `winner` is the "W" mark. */
  datatype LogEntry = LogEntry(server: string, winner: bool)

  /** The loop's results: what was forwarded to the caller, the log, the
      addresses sent to the tracker, and the cacheable responses kept. */
  datatype Round = Round(forwarded: Option<Msg>, log: seq<LogEntry>,
                         discovered: seq<string>, allresults: seq<Msg>)

  /** Reply i is the first one that carries a response. */
  predicate IsFirstAnswered(outcomes: seq<Outcome>, i: int) {
    && 0 <= i < |outcomes|
    && outcomes[i].response.Some?
    && forall j :: 0 <= j < i ==> outcomes[j].response.None?
  }

  /** Reply i carries a cacheable response. */
  predicate AnsweredCachable(outcomes: seq<Outcome>, i: int) {
    0 <= i < |outcomes| && outcomes[i].response.Some? && IsCachable(outcomes[i].response.value)
  }

  /** The loop of `multidns` over the replies in arrival order. */
  function Collect(outcomes: seq<Outcome>): (r: Round)
    ensures |r.log| == |outcomes|
  {
    if outcomes == [] then Round(None, [], [], [])
    else
      var prev := Collect(outcomes[..|outcomes| - 1]);
      var o := outcomes[|outcomes| - 1];
      // the first reply with a response, while nothing has been sent yet
      var win := prev.forwarded.None? && o.response.Some?;
      var cachable := o.response.Some? && IsCachable(o.response.value);
      Round(
        if win then o.response else prev.forwarded,
        prev.log + [LogEntry(o.server, win)],
        prev.discovered + (if cachable then Addrs(o.response.value.answer) else []),
        prev.allresults + (if cachable then [o.response.value] else []))
  }

  /** Being the first reply with a response is decided by the replies up to
      that one: later arrivals do not change it. */
  lemma FirstAnsweredInPrefix(outcomes: seq<Outcome>, i: int)
    requires 0 <= i < |outcomes| - 1
    ensures IsFirstAnswered(outcomes, i) <==> IsFirstAnswered(outcomes[..|outcomes| - 1], i)
  {
    assert forall j :: 0 <= j <= i ==> outcomes[j] == outcomes[..|outcomes| - 1][j];
  }

  /** Exactly the first reply with a response is forwarded; nothing is
      forwarded when every exchange failed. */
  lemma {:induction false} CollectForwardsFirst(outcomes: seq<Outcome>)
    ensures var r := Collect(outcomes);
            && (r.forwarded.None? <==> forall i :: 0 <= i < |outcomes| ==> outcomes[i].response.None?)
            && (forall i :: IsFirstAnswered(outcomes, i) ==> r.forwarded == outcomes[i].response)
  {
    if outcomes != [] {
      var init := outcomes[..|outcomes| - 1];
      CollectForwardsFirst(init);
      if Collect(init).forwarded.None? {
        assert forall j :: 0 <= j < |init| ==> outcomes[j] == init[j];
      } else {
        var k :| 0 <= k < |init| && init[k].response.Some?;
        assert outcomes[k] == init[k];
        forall i | IsFirstAnswered(outcomes, i)
          ensures i < |init| && IsFirstAnswered(init, i)
        {
          FirstAnsweredInPrefix(outcomes, i);
        }
      }
    }
  }

  /** One more reply adds one log line, for its server, marked as the winner
      exactly when nothing had been forwarded yet and it carries a response. */
  lemma CollectLogStep(outcomes: seq<Outcome>)
    requires outcomes != []
    ensures var n := |outcomes| - 1;
            var prev := Collect(outcomes[..n]);
            Collect(outcomes).log
              == prev.log + [LogEntry(outcomes[n].server, prev.forwarded.None? && outcomes[n].response.Some?)]
  {
  }

  /** Every reply is logged, in arrival order. */
  lemma {:induction false} CollectLogsArrivals(outcomes: seq<Outcome>)
    ensures forall i :: 0 <= i < |outcomes| ==> Collect(outcomes).log[i].server == outcomes[i].server
  {
    if outcomes != [] {
      var n := |outcomes| - 1;
      CollectLogsArrivals(outcomes[..n]);
      CollectLogStep(outcomes);
    }
  }

  /** The winner mark is on the line of exactly the first reply with a
      response. */
  lemma {:induction false} CollectMarksWinner(outcomes: seq<Outcome>)
    ensures forall i :: 0 <= i < |outcomes| ==>
              (Collect(outcomes).log[i].winner <==> IsFirstAnswered(outcomes, i))
  {
    if outcomes != [] {
      var n := |outcomes| - 1;
      var init := outcomes[..n];
      CollectMarksWinner(init);
      CollectForwardsFirst(init);
      CollectLogStep(outcomes);
      var prev := Collect(init);
      assert prev.forwarded.None? && outcomes[n].response.Some? <==> IsFirstAnswered(outcomes, n) by {
        if prev.forwarded.None? {
          assert forall j :: 0 <= j < n ==> outcomes[j] == init[j];
        } else {
          var k :| 0 <= k < n && init[k].response.Some?;
          assert outcomes[k] == init[k];
        }
      }
      forall i | 0 <= i < n
        ensures IsFirstAnswered(outcomes, i) <==> IsFirstAnswered(init, i)
      {
        FirstAnsweredInPrefix(outcomes, i);
      }
    }
  }

  /** At most one log line carries the winner mark. */
  lemma AtMostOneWinner(outcomes: seq<Outcome>)
    ensures forall i, j ::
              (&& 0 <= i < |outcomes| && 0 <= j < |outcomes|
               && Collect(outcomes).log[i].winner && Collect(outcomes).log[j].winner)
              ==> i == j
  {
    CollectMarksWinner(outcomes);
  }

  /** The cacheable responses among the replies, in arrival order. */
  function Cachables(outcomes: seq<Outcome>): seq<Msg> {
    if outcomes == [] then []
    else
      var o := outcomes[|outcomes| - 1];
      Cachables(outcomes[..|outcomes| - 1])
        + (if o.response.Some? && IsCachable(o.response.value) then [o.response.value] else [])
  }

  /** Every cacheable response is kept for the cache, in arrival order, and
      nothing else is: some response is kept exactly when some reply carries
      a cacheable one. */
  lemma {:induction false} CollectKeepsCachable(outcomes: seq<Outcome>)
    ensures var r := Collect(outcomes);
            && r.allresults == Cachables(outcomes)
            && (r.allresults != [] <==> exists i :: AnsweredCachable(outcomes, i))
            && (forall m :: m in r.allresults ==> IsCachable(m))
  {
    if outcomes != [] {
      var init := outcomes[..|outcomes| - 1];
      CollectKeepsCachable(init);
      var o := outcomes[|outcomes| - 1];
      if o.response.Some? && IsCachable(o.response.value) {
        assert Collect(outcomes).allresults == Collect(init).allresults + [o.response.value];
        assert AnsweredCachable(outcomes, |outcomes| - 1);
      } else {
        assert Collect(outcomes).allresults == Collect(init).allresults;
      }
      if exists i :: AnsweredCachable(init, i) {
        var i :| AnsweredCachable(init, i);
        assert AnsweredCachable(outcomes, i);
      }
      if exists i :: AnsweredCachable(outcomes, i) {
        var i :| AnsweredCachable(outcomes, i);
        if i < |init| {
          assert AnsweredCachable(init, i);
        }
      }
    }
  }

  /** The addresses handed to the tracker are the A addresses of the kept
      responses, in order. */
  lemma {:induction false} CollectDiscovers(outcomes: seq<Outcome>)
    ensures Collect(outcomes).discovered == Addrs(Cache.CachableAnswers(Collect(outcomes).allresults))
  {
    if outcomes != [] {
      var init := outcomes[..|outcomes| - 1];
      CollectDiscovers(init);
      var prev := Collect(init);
      var r := Collect(outcomes);
      var o := outcomes[|outcomes| - 1];
      if o.response.Some? && IsCachable(o.response.value) {
        var m := o.response.value;
        assert r.allresults == prev.allresults + [m];
        assert r.allresults[..|r.allresults| - 1] == prev.allresults;
        assert Cache.CachableAnswers(r.allresults) == Cache.CachableAnswers(prev.allresults) + m.answer;
        AddrsAppend(Cache.CachableAnswers(prev.allresults), m.answer);
      } else {
        assert r.allresults == prev.allresults;
      }
    }
  }

  /** What the whole of `multidns` does after the loop: the round itself,
      whether `putincache` ran, and the Put it sent. */
  datatype RoundEffects = RoundEffects(round: Round, ranPutInCache: bool, put: Option<Cache.PutRequest>)

  /** `putincache` runs exactly when some reply carries a cacheable
      response. A Put is sent exactly when the tracker was told about some
      address; it holds A records only, for exactly those addresses, rebuilt
      from the cacheable responses in arrival order. */
  function MultiDns(outcomes: seq<Outcome>): (r: RoundEffects)
    ensures r.ranPutInCache <==> exists i :: AnsweredCachable(outcomes, i)
    ensures r.put.Some? <==> r.round.discovered != []
    ensures r.put.Some? ==>
              && AllA(r.put.value.result)
              && Addrs(r.put.value.result) == r.round.discovered
              && r.put.value.result == Cache.Rebuilt(Cachables(outcomes))
  {
    var round := Collect(outcomes);
    CollectKeepsCachable(outcomes);
    CollectDiscovers(outcomes);
    if |round.allresults| > 0 then RoundEffects(round, true, Cache.PutInCache(round.allresults))
    else RoundEffects(round, false, None)
  }

  /** Over a whole round: when no answer of a cacheable reply has TTL 0, the
      Put's TTL is the minimum TTL over every answer of every cacheable reply,
      whichever reply arrived first. */
  lemma RoundTtlIsMinimum(outcomes: seq<Outcome>)
    requires MultiDns(outcomes).put.Some?
    requires forall rr :: rr in Cache.CachableAnswers(Cachables(outcomes)) ==> rr.ttl != 0
    ensures |Cache.CachableAnswers(Cachables(outcomes))| > 0
    ensures MultiDns(outcomes).put.value.ttl == Cache.SeqMin(Cache.Ttls(Cache.CachableAnswers(Cachables(outcomes))))
  {
    CollectKeepsCachable(outcomes);
    Cache.PutTtlIsMinimum(Cachables(outcomes));
  }
}

=== FILE: icmp.dfy ===
/**
 * The ICMP echo request builder (`makePingRequest`) shared by the resolver's
 * prober and the stand-alone ping benchmark, together with the Internet
 * checksum of RFC 1071 that it writes into the packet.
 *
 * Go's bit operations are written arithmetically: `x >> 8` is `x / 0x100`
 * (Dafny's division by a positive constant rounds down, as an arithmetic shift
 * does), `x & 0xff` is `x % 0x100`, `a<<8 | b` with `b < 0x100` is
 * `a * 0x100 + b`, and uint32 arithmetic wraps modulo `Uint32Modulus`.
 */
module Icmp {

  /** Go's `byte`. */
  type uint8 = x: int | 0 <= x < 0x100

  const EchoRequest: uint8 := 8

  /** Go's uint32 arithmetic wraps modulo this. */
  const Uint32Modulus: int := 0x1_0000_0000

  /** The longest IP datagram (RFC 791); no ICMP message is longer. */
  const MaxDatagram: int := 65535

  /** Go's `uint8(x)` conversion: the low eight bits, two's complement for negative x. */
  function Low8(x: int): uint8 {
    x % 0x100
  }

  /** Go's `x >> 16` on a uint32. */
  function Shr16(x: nat): nat {
    x / 0x10000
  }

  /** Go's `x & 0xffff`. */
  function Low16(x: nat): nat {
    x % 0x10000
  }

  /** Go's `x >> 8`. */
  function Shr8(x: int): int {
    x / 0x100
  }

  /** Go's `^x` on a uint32: every bit flipped. */
  function Not32(x: nat): nat
    requires x < Uint32Modulus
  {
    0xFFFF_FFFF - x
  }

  function Pow2(n: nat): nat {
    if n == 0 then 1 else 2 * Pow2(n - 1)
  }

  /** Bitwise exclusive or of the low n bits of a and b, lowest bit first. */
  function XorBits(a: nat, b: nat, n: nat): (r: nat)
    ensures r < Pow2(n)
  {
    if n == 0 then 0 else (a % 2 + b % 2) % 2 + 2 * XorBits(a / 2, b / 2, n - 1)
  }

  /** Go's `a ^ b` on bytes. */
  function Xor8(a: uint8, b: uint8): uint8 {
    assert Pow2(8) == 0x100;
    XorBits(a, b, 8)
  }

  /** The standard library's `bytes.Repeat(s, count)`: `count` copies of `s` end to end. */
  function Repeat(s: seq<uint8>, count: nat): seq<uint8> {
    if count == 0 then [] else Repeat(s, count - 1) + s
  }

  /** Go's built-in `copy(dst, src)`: overwrite a prefix of `dst` with as much of
      `src` as fits; `dst` keeps its length. */
  function Copy(dst: seq<uint8>, src: seq<uint8>): (r: seq<uint8>)
    ensures |r| == |dst|
    ensures forall i :: 0 <= i < |r| ==> r[i] == (if i < |src| then src[i] else dst[i])
  {
    if |src| >= |dst| then src[..|dst|] else src + dst[|src|..]
  }

  // ---------------------------------------------------------------------------
  // Reference definitions of the Internet checksum (RFC 1071)
  // ---------------------------------------------------------------------------

  /** Two bytes read as a 16-bit value, high byte first. */
  function BE16(hi: uint8, lo: uint8): nat {
    0x100 * hi as int + lo as int
  }

  /** Word k of a packet read as little-endian byte pairs (byte 2k low). */
  function WordLE(p: seq<uint8>, k: nat): nat
    requires 2 * k + 1 < |p|
  {
    BE16(p[2 * k + 1], p[2 * k])
  }

  /** Word k of a packet read in network (big-endian) byte order. */
  function WordBE(p: seq<uint8>, k: nat): nat
    requires 2 * k + 1 < |p|
  {
    BE16(p[2 * k], p[2 * k + 1])
  }

  /** Unbounded sum of the first n little-endian words. */
  function PairSumLE(p: seq<uint8>, n: nat): nat
    requires 2 * n <= |p|
  {
    if n == 0 then 0 else PairSumLE(p, n - 1) + WordLE(p, n - 1)
  }

  /** Unbounded sum of the first n big-endian words. */
  function PairSumBE(p: seq<uint8>, n: nat): nat
    requires 2 * n <= |p|
  {
    if n == 0 then 0 else PairSumBE(p, n - 1) + WordBE(p, n - 1)
  }

  /** Sum of the high (odd-index) bytes of the first n pairs. */
  function HighBytes(p: seq<uint8>, n: nat): nat
    requires 2 * n <= |p|
  {
    if n == 0 then 0 else HighBytes(p, n - 1) + p[2 * n - 1]
  }

  /** The 16-bit word sum of a whole packet read little-endian; an odd
      trailing byte is the low byte of a zero-padded word. */
  function Sum16LE(p: seq<uint8>): nat {
    PairSumLE(p, |p| / 2) + (if |p| % 2 == 1 then p[|p| - 1] else 0)
  }

  /** The same sum in network byte order; an odd trailing byte is the high
      byte of a zero-padded word. */
  function Sum16BE(p: seq<uint8>): nat {
    PairSumBE(p, |p| / 2) + (if |p| % 2 == 1 then BE16(p[|p| - 1], 0) else 0)
  }

  /** The carry-folding loop of section 4.1 of RFC 1071
      (`while (sum >> 16) sum = (sum & 0xffff) + (sum >> 16);`): the
      one's-complement value of an unbounded word sum. */
  function Fold16(x: nat): (r: nat)
    ensures r <= 0xFFFF
    ensures r % 0xFFFF == x % 0xFFFF
    ensures r == 0 <==> x == 0
    decreases x
  {
    if x <= 0xFFFF then x
    else
      var hi, lo := x / 0x10000, x % 0x10000;
      assert x == 0xFFFF * hi + (hi + lo);
      ModOfShift(hi + lo, hi);
      Fold16(hi + lo)
  }

  /** Receiver-side check of RFC 1071 section 1: the one's-complement sum
      over the packet, checksum included, is all one bits. */
  predicate ChecksumValid(sum: nat) {
    Fold16(sum) == 0xFFFF
  }

  /** The first fold: the high half of the uint32 accumulator added to its low
      half, wrapping as uint32 arithmetic does. */
  function FoldCarry(s: nat): nat {
    (Shr16(s) + Low16(s)) % Uint32Modulus
  }

  /** The second fold: the carry left in the high half added back into the
      accumulator, again wrapping. */
  function AddCarry(s: nat): nat {
    (s + Shr16(s)) % Uint32Modulus
  }

  /** The two folds `makePingRequest` applies to its 32-bit accumulator. */
  function FoldTwice(s: nat): nat {
    AddCarry(FoldCarry(s))
  }

  // ---------------------------------------------------------------------------
  // Arithmetic helpers
  // ---------------------------------------------------------------------------

  lemma ModOfShift(y: int, k: int)
    ensures (0xFFFF * k + y) % 0xFFFF == y % 0xFFFF
  {
    var q := y / 0xFFFF;
    assert y == 0xFFFF * q + y % 0xFFFF;
    assert 0xFFFF * k + y == 0xFFFF * (k + q) + y % 0xFFFF;
    DivModUnique(0xFFFF * k + y, 0xFFFF, k + q, y % 0xFFFF);
  }

  lemma DivModUnique(x: int, m: int, q: int, r: int)
    requires 0 < m
    requires x == m * q + r && 0 <= r < m
    ensures x / m == q && x % m == r
  {
    var q', r' := x / m, x % m;
    assert x == m * q' + r';
    if q' > q {
      assert m * q' >= m * (q + 1) by { MulMono(m, q + 1, q'); }
      assert false;
    } else if q' < q {
      assert m * q >= m * (q' + 1) by { MulMono(m, q' + 1, q); }
      assert false;
    }
  }

  lemma MulMono(m: int, a: int, b: int)
    requires 0 < m && a <= b
    ensures m * a <= m * b
  {
    assert m * b == m * a + m * (b - a);
  }

  // ---------------------------------------------------------------------------
  // Properties of the reference definitions
  // ---------------------------------------------------------------------------

  /** Every word sum that is a positive multiple of 0xFFFF folds to all ones:
      the verification of RFC 1071 succeeds exactly on those. */
  lemma {:induction false} FoldOfMultiple(x: nat)
    ensures ChecksumValid(x) <==> x > 0 && x % 0xFFFF == 0
  {
    var r := Fold16(x);
    if r < 0xFFFF {
      assert r % 0xFFFF == r;
    }
  }

  /** The two folds on a 32-bit accumulator give the same 16-bit value as
      RFC 1071's carry-folding loop. */
  lemma FoldTwiceMatchesCarryLoop(s: nat)
    requires s < Uint32Modulus
    ensures FoldTwice(s) % 0x10000 == Fold16(s)
  {
    var h, l := Shr16(s), Low16(s);
    assert s == 0x10000 * h + l && l < 0x10000;
    assert h <= 0xFFFF;
    var s1 := h + l;
    DivModUnique(s1, Uint32Modulus, 0, s1);
    if s1 <= 0xFFFF {
      DivModUnique(s1, 0x10000, 0, s1);
      DivModUnique(s1, Uint32Modulus, 0, s1);
      assert FoldTwice(s) == s1;
      if s > 0xFFFF {
        Fold16Step(s);
      } else {
        DivModUnique(s, 0x10000, 0, s);
      }
    } else {
      DivModUnique(s1, 0x10000, 1, s1 - 0x10000);
      DivModUnique(s1 + 1, Uint32Modulus, 0, s1 + 1);
      DivModUnique(s1 + 1, 0x10000, 1, s1 + 1 - 0x10000);
      assert FoldTwice(s) == s1 + 1;
      Fold16Step(s);
      Fold16Step(s1);
    }
  }

  lemma Fold16Step(x: nat)
    requires x > 0xFFFF
    ensures Fold16(x) == Fold16(x / 0x10000 + x % 0x10000)
  {
  }

  /** Go's `^s`, split into its low and high byte, read back as a
      little-endian word, is the 16-bit complement of the low half of s. */
  lemma ComplementBytes(s: nat)
    requires s < Uint32Modulus
    ensures BE16(Low8((0xFFFF_FFFF - s) / 0x100), Low8(0xFFFF_FFFF - s)) == 0xFFFF - s % 0x10000
  {
    var n := 0xFFFF_FFFF - s;
    var a, b := n / 0x100, n % 0x100;
    var c, d := a / 0x100, a % 0x100;
    assert n == 0x10000 * c + (0x100 * d + b);
    DivModUnique(n, 0x10000, c, 0x100 * d + b);
    var h, l := s / 0x10000, s % 0x10000;
    assert n == 0x10000 * (0xFFFF - h) + (0xFFFF - l);
    DivModUnique(n, 0x10000, 0xFFFF - h, 0xFFFF - l);
  }

  /** A value's low two bytes, high byte first, read back big-endian. */
  lemma SplitLow16(x: int)
    ensures BE16(Low8(x / 0x100), Low8(x)) == x % 0x10000
  {
    var a, b := x / 0x100, x % 0x100;
    var c, d := a / 0x100, a % 0x100;
    assert x == 0x10000 * c + (0x100 * d + b);
    DivModUnique(x, 0x10000, c, 0x100 * d + b);
  }

  /** `bytes.Repeat` places byte i of its result at position i mod |s| of s. */
  lemma {:induction false} RepeatIndex(s: seq<uint8>, count: nat)
    requires |s| > 0
    ensures |Repeat(s, count)| == |s| * count
    ensures forall i :: 0 <= i < |s| * count ==> Repeat(s, count)[i] == s[i % |s|]
  {
    if count > 0 {
      RepeatIndex(s, count - 1);
      var r := Repeat(s, count);
      assert r == Repeat(s, count - 1) + s;
      assert |s| * count == |s| * (count - 1) + |s|;
      forall i | |s| * (count - 1) <= i < |s| * count
        ensures r[i] == s[i % |s|]
      {
        DivModUnique(i, |s|, count - 1, i - |s| * (count - 1));
      }
    }
  }

  /** The repeat count `(pktlen-8)/len(filler)+1` yields more filler bytes than
      the payload holds, so `copy` fills the whole payload. */
  lemma RepeatCovers(payloadLen: nat, fillerLen: nat)
    requires fillerLen > 0
    ensures fillerLen * (payloadLen / fillerLen + 1) > payloadLen
  {
    var q := payloadLen / fillerLen;
    assert payloadLen == fillerLen * q + payloadLen % fillerLen;
    assert fillerLen * (q + 1) == fillerLen * q + fillerLen;
  }

  lemma {:induction false} PairSumLEBound(p: seq<uint8>, n: nat)
    requires 2 * n <= |p|
    ensures PairSumLE(p, n) <= 0xFFFF * n
  {
    if n > 0 {
      PairSumLEBound(p, n - 1);
    }
  }

  /** A packet that fits in an IP datagram cannot overflow the 32-bit
      accumulator. */
  lemma Sum16LEFits(p: seq<uint8>)
    requires |p| <= MaxDatagram
    ensures Sum16LE(p) < Uint32Modulus
  {
    PairSumLEBound(p, |p| / 2);
  }

  /** Changing only bytes 2 and 3 changes the word sum by the difference of
      word 1. */
  lemma {:induction false} PairSumLEWord1(p: seq<uint8>, q: seq<uint8>, n: nat)
    requires |p| == |q| && 2 <= n && 2 * n <= |p|
    requires forall i :: 0 <= i < |p| && i != 2 && i != 3 ==> p[i] == q[i]
    ensures PairSumLE(q, n) + WordLE(p, 1) == PairSumLE(p, n) + WordLE(q, 1)
  {
    if n > 2 {
      PairSumLEWord1(p, q, n - 1);
      assert WordLE(p, n - 1) == WordLE(q, n - 1);
    } else {
      assert PairSumLE(p, 1) == PairSumLE(q, 1);
    }
  }

  lemma {:induction false} PairSumSwap(p: seq<uint8>, n: nat)
    requires 2 * n <= |p|
    ensures 0x100 * PairSumLE(p, n) == PairSumBE(p, n) + 0xFFFF * HighBytes(p, n)
  {
    if n > 0 {
      PairSumSwap(p, n - 1);
    }
  }

  /** Section 2(B) of RFC 1071: the sum is byte-order independent. Reading
      the pairs in the other order multiplies the sum by 0x100 modulo 0xFFFF. */
  lemma ByteOrderIndependence(p: seq<uint8>)
    ensures 0x100 * Sum16LE(p) == Sum16BE(p) + 0xFFFF * HighBytes(p, |p| / 2)
    ensures Sum16LE(p) % 0xFFFF == 0 ==> Sum16BE(p) % 0xFFFF == 0
  {
    PairSumSwap(p, |p| / 2);
    if Sum16LE(p) % 0xFFFF == 0 {
      var m := Sum16LE(p) / 0xFFFF;
      assert Sum16LE(p) == 0xFFFF * m;
      assert Sum16BE(p) == 0xFFFF * (0x100 * m - HighBytes(p, |p| / 2));
      DivModUnique(Sum16BE(p), 0xFFFF, 0x100 * m - HighBytes(p, |p| / 2), 0);
    }
  }

  lemma {:induction false} PairSumBEFirst(p: seq<uint8>, n: nat)
    requires 1 <= n && 2 * n <= |p|
    ensures PairSumBE(p, n) >= BE16(p[0], 0)
  {
    if n > 1 {
      PairSumBEFirst(p, n - 1);
    }
  }

  /** The checksum theorem: writing the complement of the folded sum of the
      zero-checksum packet into bytes 2-3 makes the whole packet pass the
      RFC 1071 check, whichever byte order the receiver sums in. */
  lemma ChecksumMakesPacketValid(z: seq<uint8>, q: seq<uint8>)
    requires 4 <= |z| == |q|
    requires z[2] == 0 && z[3] == 0 && q[0] > 0
    requires forall i :: 0 <= i < |z| && i != 2 && i != 3 ==> z[i] == q[i]
    requires WordLE(q, 1) == 0xFFFF - Fold16(Sum16LE(z))
    ensures ChecksumValid(Sum16LE(q))
    ensures ChecksumValid(Sum16BE(q))
  {
    PairSumLEWord1(z, q, |z| / 2);
    var s := Sum16LE(z);
    var t := Sum16LE(q);
    assert t == s + (0xFFFF - Fold16(s));
    ModOfShift(s, 1);
    ModOfShift(0, 1);
    assert t % 0xFFFF == (0xFFFF * 1 + (s - Fold16(s))) % 0xFFFF;
    ModOfShift(s - Fold16(s), 1);
    var k := (s - Fold16(s)) / 0xFFFF;
    assert (s - Fold16(s)) % 0xFFFF == 0 by {
      assert s == 0xFFFF * (s / 0xFFFF) + s % 0xFFFF;
      assert Fold16(s) == 0xFFFF * (Fold16(s) / 0xFFFF) + Fold16(s) % 0xFFFF;
      DivModUnique(s - Fold16(s), 0xFFFF, s / 0xFFFF - Fold16(s) / 0xFFFF, 0);
    }
    assert t > 0;
    FoldOfMultiple(t);
    ByteOrderIndependence(q);
    PairSumBEFirst(q, |q| / 2);
    FoldOfMultiple(Sum16BE(q));
  }

  lemma AddMod(a: nat, w: nat)
    ensures (a % Uint32Modulus + w) % Uint32Modulus == (a + w) % Uint32Modulus
  {
    var q := a / Uint32Modulus;
    assert a == Uint32Modulus * q + a % Uint32Modulus;
    var t := a % Uint32Modulus + w;
    DivModUnique(t, Uint32Modulus, t / Uint32Modulus, t % Uint32Modulus);
    DivModUnique(a + w, Uint32Modulus, q + t / Uint32Modulus, t % Uint32Modulus);
  }

  /** One step of the checksum loop adds word k to the wrapped sum. */
  lemma AccumulateWord(p: seq<uint8>, k: nat, s: nat)
    requires 2 * k + 1 < |p|
    requires s == PairSumLE(p, k) % Uint32Modulus
    ensures (s + (p[2 * k + 1] as int * 0x100 + p[2 * k] as int)) % Uint32Modulus
            == PairSumLE(p, k + 1) % Uint32Modulus
    ensures 0 <= (s + (p[2 * k + 1] as int * 0x100 + p[2 * k] as int)) % Uint32Modulus < Uint32Modulus
  {
    AddMod(PairSumLE(p, k), WordLE(p, k));
  }

  lemma {:induction false} XorBitsZero(v: nat, n: nat)
    requires v < Pow2(n)
    ensures XorBits(0, v, n) == v
  {
    if n > 0 {
      XorBitsZero(v / 2, n - 1);
    }
  }

  /** Exclusive or into a zero byte stores the value itself. */
  lemma XorZero(v: uint8)
    ensures Xor8(0, v) == v
  {
    assert Pow2(8) == 0x100;
    XorBitsZero(v, 8);
  }

  // ---------------------------------------------------------------------------
  // The packet builder
  // ---------------------------------------------------------------------------

  /** The packet `makePingRequest` has built when it starts the checksum:
      the echo header with a zero checksum field, then the filler repeated
      and truncated to the payload length. */
  function UnsummedPacket(id: int, sequence: int, pktlen: int, filler: seq<uint8>): (p: seq<uint8>)
    requires 8 <= pktlen && |filler| > 0
    ensures |p| == pktlen
    ensures p[0] == EchoRequest && p[1] == 0 && p[2] == 0 && p[3] == 0
    ensures BE16(p[4], p[5]) == id % 0x10000
    ensures BE16(p[6], p[7]) == sequence % 0x10000
    ensures forall k :: 8 <= k < pktlen ==> p[k] == filler[(k - 8) % |filler|]
  {
    var count := (pktlen - 8) / |filler| + 1;
    var fill := Repeat(filler, count);
    RepeatIndex(filler, count);
    RepeatCovers(pktlen - 8, |filler|);
    SplitLow16(id);
    SplitLow16(sequence);
    var header := [EchoRequest, 0, 0, 0,
                   Low8(id / 0x100), Low8(id),                // id
                   Low8(sequence / 0x100), Low8(sequence)];   // sequence
    header + Copy(seq(pktlen - 8, _ => 0), fill)
  }

  /** The summing loop of `makePingRequest`: little-endian byte pairs added
      into a 32-bit accumulator, then an odd trailing byte on its own. */
  method WordSum(p: seq<uint8>) returns (s: nat)
    ensures s == Sum16LE(p) % Uint32Modulus
    ensures |p| <= MaxDatagram ==> s == Sum16LE(p)
  {
    var cklen := |p|;
    s := 0;
    var i := 0;
    ghost var k := 0;   // words summed so far
    while i < cklen - 1
      invariant i == 2 * k && i <= cklen
      invariant 0 <= s < Uint32Modulus
      invariant s == PairSumLE(p, k) % Uint32Modulus
    {
      AccumulateWord(p, k, s);
      s := (s + (p[i + 1] as int * 0x100 + p[i] as int)) % Uint32Modulus;
      i := i + 2;
      k := k + 1;
    }
    DivModUnique(cklen, 2, k, cklen - i);
    if cklen % 2 == 1 {
      AddMod(PairSumLE(p, k), p[cklen - 1]);
      s := (s + p[cklen - 1]) % Uint32Modulus;
    }
    if |p| <= MaxDatagram {
      Sum16LEFits(p);
      DivModUnique(Sum16LE(p), Uint32Modulus, 0, Sum16LE(p));
    }
  }

  /** The bytes `makePingRequest` writes into the zero checksum field, read
      back little-endian, are the 16-bit complement of RFC 1071's folded sum. */
  lemma ChecksumField(sum: nat, s: nat)
    requires sum < Uint32Modulus && s == FoldTwice(sum)
    ensures s < Uint32Modulus
    ensures BE16(Low8(Shr8(Not32(s))), Low8(Not32(s))) == 0xFFFF - Fold16(sum)
  {
    FoldTwiceMatchesCarryLoop(sum);
    ComplementBytes(s);
  }

  /** `makePingRequest(id, seq, pktlen, filler)`: an ICMP echo request of
      `pktlen` bytes with identifier `id`, sequence number `sequence`, the
      filler repeated as payload and the Internet checksum in bytes 2-3. */
  method MakePingRequest(id: int, sequence: int, pktlen: int, filler: seq<uint8>)
      returns (p: seq<uint8>)
    requires 8 <= pktlen      // `p[8:]` on a shorter slice panics
    requires |filler| > 0     // `(pktlen-8)/len(filler)` divides by zero otherwise
    ensures |p| == pktlen
    ensures p[0] == EchoRequest && p[1] == 0
    ensures BE16(p[4], p[5]) == id % 0x10000
    ensures BE16(p[6], p[7]) == sequence % 0x10000
    ensures forall k :: 8 <= k < pktlen ==> p[k] == filler[(k - 8) % |filler|]
    ensures pktlen <= MaxDatagram ==>
              WordLE(p, 1) == 0xFFFF - Fold16(Sum16LE(p[2 := 0][3 := 0]))
    ensures pktlen <= MaxDatagram ==> ChecksumValid(Sum16LE(p))
    ensures pktlen <= MaxDatagram ==> ChecksumValid(Sum16BE(p))
  {
    p := UnsummedPacket(id, sequence, pktlen, filler);

    // calculate the checksum over the packet with bytes 2-3 zero
    var s := WordSum(p);
    ghost var sum := s;
    s := FoldCarry(s);   // high half into low half
    s := AddCarry(s);    // the carry of that addition back in

    // place the checksum; `^=` does not assume bytes 2-3 are zero
    ghost var z := p;
    var lo, hi := Low8(Not32(s)), Low8(Shr8(Not32(s)));
    p := p[2 := Xor8(p[2], lo)];
    p := p[3 := Xor8(p[3], hi)];
    XorZero(lo);
    XorZero(hi);
    assert p == z[2 := lo][3 := hi];

    if pktlen <= MaxDatagram {
      ChecksumField(sum, s);
      assert BE16(hi, lo) == 0xFFFF - Fold16(sum);
      assert sum == Sum16LE(z);
      assert z == p[2 := 0][3 := 0];
      assert WordLE(p, 1) == BE16(hi, lo);
      ChecksumMakesPacketValid(z, p);
    }
  }
}

=== FILE: tracker.dfy ===
/**
 * The IP health tracker (`iptracker`): an actor that owns a map from IP
 * address to its last probe reading and handles one message at a time.
 * Each handler is a pure transition that returns the new map together with
 * the probes it asks for; launching a probe (`go pingtest`) and the timers
 * that drive the recheck are left to the caller. Time is an integer count of
 * nanoseconds, as Go's `time.Duration`.
 */
module Tracker {
  import opened Wrappers
  import opened Clock

  /** `ipresult`: latency of the last probe, whether it was answered, and
      when it was taken. */
  datatype IpResult = IpResult(timing: int, status: bool, lastchecked: int)

  type Table = map<string, IpResult>

  /** The state after a handler and the addresses it asks to probe, in the
      order the probes are launched. */
  datatype Transition = Transition(table: Table, probes: seq<string>)

  /** The reading `pingtest` delivers: a failed probe reports status false
      and a zero timing, a successful one its latency; both are stamped with
      the time they were taken. */
  function ProbeReading(ok: bool, elapsed: int, now: int): (r: IpResult)
    ensures r.status == ok && r.lastchecked == now
    ensures ok ==> r.timing == elapsed
    ensures !ok ==> r.timing == 0
  {
    if ok then IpResult(elapsed, true, now) else IpResult(0, false, now)
  }

  // ---------------------------------------------------------------------------
  // Discover and Update
  // ---------------------------------------------------------------------------

  /** An address sighted by the fanout: probe it unless the table already
      holds a reading for it. No placeholder is stored. */
  function Discover(t: Table, ip: string): (r: Transition)
    ensures r.table == t
    ensures |r.probes| <= 1
    ensures r.probes != [] <==> ip !in t
    ensures forall x :: x in r.probes ==> x == ip
  {
    if ip in t then Transition(t, []) else Transition(t, [ip])
  }

  /** A probe result: overwrite that address's reading. */
  function Update(t: Table, ip: string, reading: IpResult): (r: Table)
    ensures ip in r && r[ip] == reading
    ensures r.Keys == t.Keys + {ip}
    ensures forall k :: k in t && k != ip ==> r[k] == t[k]
  {
    t[ip := reading]
  }

  /** A whole round's addresses, discovered one after another, each against
      the table the previous Discover left. */
  function DiscoverAll(t: Table, ips: seq<string>): (r: Transition)
    ensures r.table == t
  {
    if ips == [] then Transition(t, [])
    else
      var prev := DiscoverAll(t, ips[..|ips| - 1]);
      var d := Discover(prev.table, ips[|ips| - 1]);
      Transition(d.table, prev.probes + d.probes)
  }

  /** The probes of a round are exactly the addresses not yet in the table,
      in sighting order and with repetitions: an address seen twice before
      its first reading arrives is probed twice. */
  lemma {:induction false} DiscoverAllProbesUnknown(t: Table, ips: seq<string>)
    ensures DiscoverAll(t, ips).probes == Unknown(t, ips)
  {
    if ips != [] {
      DiscoverAllProbesUnknown(t, ips[..|ips| - 1]);
    }
  }

  /** The addresses of `ips` that have no reading in `t`, in order. */
  function Unknown(t: Table, ips: seq<string>): seq<string> {
    if ips == [] then []
    else
      var last := ips[|ips| - 1];
      Unknown(t, ips[..|ips| - 1]) + (if last in t then [] else [last])
  }

  /** Presence, not probe completion, is the dedupe key: two sightings of a
      new address before its first reading both ask for a probe, and a
      sighting after a reading asks for none. */
  lemma DiscoverTwiceProbesTwice(t: Table, ip: string, reading: IpResult)
    requires ip !in t
    ensures DiscoverAll(t, [ip, ip]).probes == [ip, ip]
    ensures Discover(Update(t, ip, reading), ip).probes == []
  {
    var d := Discover(t, ip).probes;
    assert d[0] in d;
    assert d == [ip];
    assert [ip, ip][..1] == [ip];
    assert [ip][..0] == [];
    assert DiscoverAll(t, [ip]).probes == [ip];
  }

  // ---------------------------------------------------------------------------
  // BestOf
  // ---------------------------------------------------------------------------

  /** A candidate `BestOf` may pick: known, answered, and faster than a minute. */
  predicate Qualifies(t: Table, ip: string) {
    ip in t && t[ip].status && t[ip].timing < Minute
  }

  /** Index `i` holds a fastest qualifying candidate, and no earlier one is
      as fast. */
  predicate IsBestIndex(t: Table, cs: seq<string>, i: nat) {
    && i < |cs|
    && Qualifies(t, cs[i])
    && (forall j :: 0 <= j < |cs| && Qualifies(t, cs[j]) ==> t[cs[i]].timing <= t[cs[j]].timing)
    && (forall j :: 0 <= j < i && Qualifies(t, cs[j]) ==> t[cs[i]].timing < t[cs[j]].timing)
  }

  /** The scan of `BestOf` over the first n candidates: the index of the
      current best, if any, and the current ceiling, which starts at one
      minute and only moves on a strictly faster reachable candidate. */
  function BestScan(t: Table, cs: seq<string>, n: nat): (r: (Option<nat>, int))
    requires n <= |cs|
    ensures r.0.None? ==> r.1 == Minute && forall j :: 0 <= j < n ==> !Qualifies(t, cs[j])
    ensures r.0.Some? ==> IsBestIndex(t, cs[..n], r.0.value) && r.1 == t[cs[r.0.value]].timing
  {
    if n == 0 then (None, Minute)
    else
      var (best, besttime) := BestScan(t, cs, n - 1);
      var c := cs[n - 1];
      assert cs[..n - 1] == cs[..n][..n - 1];
      if c in t && t[c].status && besttime > t[c].timing then (Some(n - 1), t[c].timing)
      else (best, besttime)
  }

  /** `BestOf` by position: the first fastest qualifying candidate, or none
      when no candidate qualifies. */
  function BestIndex(t: Table, cs: seq<string>): (r: Option<nat>)
    ensures r.None? <==> forall j :: 0 <= j < |cs| ==> !Qualifies(t, cs[j])
    ensures r.Some? ==> IsBestIndex(t, cs, r.value)
  {
    assert cs[..|cs|] == cs;
    BestScan(t, cs, |cs|).0
  }

  /** The `getbest` handler: the address the cache should serve, or "" when
      none of the candidates is known to be reachable within a minute. */
  function BestOf(t: Table, cs: seq<string>): (best: string)
    ensures best == "" || (best in cs && Qualifies(t, best))
    ensures best != "" ==> forall c :: c in cs && Qualifies(t, c) ==> t[best].timing <= t[c].timing
  {
    match BestIndex(t, cs)
    case None => ""
    case Some(i) => cs[i]
  }

  /** `BestOf` answers "" exactly when no candidate qualifies (an empty
      address never qualifies in practice: the table is keyed by formatted
      IP addresses), otherwise the first candidate with the smallest
      latency. */
  lemma BestOfSpec(t: Table, cs: seq<string>)
    requires !Qualifies(t, "")
    ensures BestOf(t, cs) == "" <==> forall c :: c in cs ==> !Qualifies(t, c)
    ensures BestOf(t, cs) != "" ==>
              exists i :: 0 <= i < |cs| && cs[i] == BestOf(t, cs) && IsBestIndex(t, cs, i)
  {
    if BestOf(t, cs) == "" {
      forall c | c in cs
        ensures !Qualifies(t, c)
      {
        var j :| 0 <= j < |cs| && cs[j] == c;
      }
    }
  }

  /** A reading of a minute or more, or a failed probe, never wins. */
  lemma SlowOrDownNeverBest(t: Table, cs: seq<string>, ip: string)
    requires ip != "" && ip in t && (!t[ip].status || t[ip].timing >= Minute)
    ensures BestOf(t, cs) != ip
  {
  }

  /** When exactly one listed candidate is reachable under a minute, it is
      returned, wherever it sits in the list and whatever the others are. */
  lemma SoleCandidateIsBest(t: Table, cs: seq<string>, ip: string)
    requires ip in cs && Qualifies(t, ip)
    requires forall c :: c in cs && Qualifies(t, c) ==> c == ip
    ensures BestOf(t, cs) == ip
  {
    var j :| 0 <= j < |cs| && cs[j] == ip;
    assert BestIndex(t, cs).Some?;
  }

  // ---------------------------------------------------------------------------
  // Recheck
  // ---------------------------------------------------------------------------

  /** `order` is one of Go's iteration orders over the table: it lists every
      key, and nothing else. */
  predicate Enumerates(order: seq<string>, t: Table) {
    (forall k :: k in order ==> k in t) && (forall k :: k in t ==> k in order)
  }

  /** `ip` holds a reading taken strictly before `now` and no other reading
      is older. */
  predicate IsOldest(t: Table, now: int, ip: string) {
    && ip in t
    && t[ip].lastchecked < now
    && forall k :: k in t ==> t[ip].lastchecked <= t[k].lastchecked
  }

  /** The recheck scan over the first n keys in iteration order: the key
      with the oldest reading so far that is strictly before `now`. */
  function RecheckScan(t: Table, order: seq<string>, now: int, n: nat): (r: (Option<string>, int))
    requires n <= |order|
    requires forall k :: k in order ==> k in t
    ensures r.1 <= now
    ensures r.0.None? ==> r.1 == now && forall j :: 0 <= j < n ==> t[order[j]].lastchecked >= now
    ensures r.0.Some? ==>
              && r.0.value in t
              && r.1 == t[r.0.value].lastchecked < now
              && forall j :: 0 <= j < n ==> r.1 <= t[order[j]].lastchecked
  {
    if n == 0 then (None, now)
    else
      var (oldest, oldesttime) := RecheckScan(t, order, now, n - 1);
      var ip := order[n - 1];
      if t[ip].lastchecked < oldesttime then (Some(ip), t[ip].lastchecked)
      else (oldest, oldesttime)
  }

  /** The recheck tick: the key picked for re-probing, whatever its health. */
  function RecheckPick(t: Table, now: int, order: seq<string>): (r: Option<string>)
    requires Enumerates(order, t)
    ensures r.None? <==> forall k :: k in t ==> t[k].lastchecked >= now
    ensures r.Some? ==> IsOldest(t, now, r.value)
  {
    ScanCoversTable(t, order, now);
    RecheckScan(t, order, now, |order|).0
  }

  /** Every key appears somewhere in the iteration order, so what the scan
      says about the positions it visited holds of the whole table. */
  lemma ScanCoversTable(t: Table, order: seq<string>, now: int)
    requires Enumerates(order, t)
    ensures var r := RecheckScan(t, order, now, |order|);
            forall k :: k in t ==> r.1 <= t[k].lastchecked
  {
    var r := RecheckScan(t, order, now, |order|);
    forall k | k in t
      ensures r.1 <= t[k].lastchecked
    {
      var j :| 0 <= j < |order| && order[j] == k;
    }
  }

  /** The probes the tick launches: one for the picked key, none when nothing
      was picked or the pick is the empty address. The table is unchanged. */
  function Recheck(t: Table, now: int, order: seq<string>): (r: Transition)
    requires Enumerates(order, t)
    ensures r.table == t
    ensures |r.probes| <= 1
    ensures forall ip :: ip in r.probes ==> IsOldest(t, now, ip)
    ensures r.probes == [] ==> "" in t || forall k :: k in t ==> t[k].lastchecked >= now
  {
    match RecheckPick(t, now, order)
    case None => Transition(t, [])
    case Some(ip) => if ip != "" then Transition(t, [ip]) else Transition(t, [])
  }

  /** On an empty table, or one whose readings are all from `now` or later,
      the tick asks for nothing. */
  lemma RecheckQuietWhenFresh(t: Table, now: int, order: seq<string>)
    requires Enumerates(order, t)
    requires forall k :: k in t ==> t[k].lastchecked >= now
    ensures Recheck(t, now, order).probes == []
  {
  }

  /** Whichever iteration order Go picks, a key with a stale reading makes the
      tick ask for a probe when no key is the empty address. */
  lemma RecheckProbesWhenStale(t: Table, now: int, order: seq<string>, ip: string)
    requires Enumerates(order, t) && "" !in t
    requires ip in t && t[ip].lastchecked < now
    ensures |Recheck(t, now, order).probes| == 1
  {
  }

  // ---------------------------------------------------------------------------
  // The actor
  // ---------------------------------------------------------------------------

  /** One message to the tracker. `RecheckTick` carries the clock and the
      map iteration order Go happens to use; the ten-second dump only logs. */
  datatype Event =
    | Discovered(ip: string)
    | Reading(ip: string, reading: IpResult)
    | BestQuery(candidates: seq<string>)
    | RecheckTick(now: int, order: seq<string>)

  /** What one message does: the new table, the probes to launch, and the
      answer to a `BestQuery` ("" for every other message). */
  datatype Output = Output(table: Table, probes: seq<string>, best: string)

  predicate WellFormed(t: Table, e: Event) {
    e.RecheckTick? ==> Enumerates(e.order, t)
  }

  /** The actor's `select` loop body for one message. */
  function Step(t: Table, e: Event): (r: Output)
    requires WellFormed(t, e)
    ensures !e.Reading? ==> r.table == t
    ensures e.Reading? ==> r.table == Update(t, e.ip, e.reading) && r.probes == []
    ensures !e.BestQuery? ==> r.best == ""
  {
    match e
    case Discovered(ip) => var d := Discover(t, ip); Output(d.table, d.probes, "")
    case Reading(ip, reading) => Output(Update(t, ip, reading), [], "")
    case BestQuery(cs) => Output(t, [], BestOf(t, cs))
    case RecheckTick(now, order) => var d := Recheck(t, now, order); Output(d.table, d.probes, "")
  }

  /** A failed probe keeps the address in the table, marked unreachable, so
      it is never picked as best until a later probe succeeds. */
  lemma FailedProbeKeepsEntry(t: Table, ip: string, elapsed: int, now: int, cs: seq<string>)
    requires ip != ""
    ensures ip in Step(t, Reading(ip, ProbeReading(false, elapsed, now))).table
    ensures BestOf(Step(t, Reading(ip, ProbeReading(false, elapsed, now))).table, cs) != ip
  {
  }

  /** With no Update in between, asking again gives the same best address:
      neither `BestQuery` nor any other non-Update message moves the table. */
  lemma BestOfStableWithoutUpdate(t: Table, e: Event, cs: seq<string>)
    requires WellFormed(t, e) && !e.Reading?
    ensures BestOf(Step(t, e).table, cs) == BestOf(t, cs)
  {
  }
}

=== FILE: wrappers.dfy ===
/** The optional value used where the Go code returns a nil pointer, a nil
    slice or a "not found" flag. */
module Wrappers {

  datatype Option<+T> = None | Some(value: T)
}
